=== FILE: README.md ===
# Quiz attempts and certificate eligibility — a Dafny model

This project models the quiz and certificate workflow of a small learning
platform (an Express/Mongoose server with a React client).

- An educator creates one quiz per course. Every question has text, exactly
  four options and exactly one correct option. The quiz's `totalPoints` is
  recomputed from the questions on every save.
- A student enrolled in the course fetches the quiz with the correct answers
  stripped, and submits answers. The server scores each answer, records the
  attempt with the next attempt number, and refuses once `maxAttempts` earlier
  attempts exist.
- A student who passed applies for a certificate. The server runs an ordered
  chain of checks, and the first failing check decides the reply. A course's
  educator approves a request. Approval stores an address derived from the
  request's `certificateId`.
- The student's enrollments page, the quiz page, the educator's quiz form and
  the educator's request list hold client-side mirrors of these rules: the
  completion test, the apply gate, button states, answer packaging, clock
  formatting and navigation bounds.

The model is functional. The document store is a `World` of sequences in
insertion order (`store.dfy`). `findOne` is the first match and
`countDocuments` counts the matches. Every handler is a function from the world
and its inputs to either `Err(reason)` or `Ok((world', reply))`, and every
refusal leaves the world unchanged. Things the model cannot compute are
parameters:

- fresh `_id`s, the `CERT-…` certificate id, and the clock (`now`);
- the outcome of the notification email (`emailSent`);
- Mongoose's ObjectId test (`isObjectId`);
- the client's lecture count from the app context.

An insert whose `_id` or `certificateId` already occurs fails with
`DuplicateKey` and saves nothing.

Four behaviours of the code that a reader might not expect; the model follows
the code:

- An answer whose `questionIndex` or `selectedOptionIndex` is out of range is
  not scored as a miss. The scoring loop throws, `submitQuiz` replies with
  failure and nothing is saved (`Scoring.Evaluate` returns `None`,
  `Attempts.SubmitQuiz` returns `Err(AnswerOutOfRange)`).
- Approval does not check that the request is still pending. A rejected
  request, or an already approved one, is approved again
  (`CertificateController.ApprovalFromAnyStatus`). No handler ever writes
  `rejected`.
- `applyForCertificate` does not check course completion. It checks
  enrolment, the quiz and a passed attempt. Completion is enforced only by the
  student page.
- The student page enables applying only when the latest attempt passed. The
  server accepts any passed attempt and references the passed attempt with the
  highest number.

The pass test `score / totalPoints * 100 >= passingScore` is modelled on exact
rationals. JavaScript's division by zero is kept (`NaN` when 0/0, `Infinity`
when positive/0), and the test is proved equal to the integer comparison
`100 * score >= passingScore * totalPoints` when `totalPoints > 0`
(`Scoring.PassTestIsCrossMultiplied`).

## Model

| member | source | states |
|---|---|---|
| QuizModel.PreSave | server/models/Quiz.js:59-62 | after the pre-save hook `totalPoints` is the sum of the question points, nothing else changes, and an empty question list gives 0 |
| QuizModel.ZeroTotalMeansZeroPoints | server/models/Quiz.js:59-62 | with non-negative points the total is non-negative, and it is 0 exactly when every question is worth 0 |
| QuizModel.CorrectCount | server/controllers/quizController.js:67 | the number of options marked correct is at most the number of options; its exact meaning is given by ExactlyOneCorrect and NoneCorrectIffZero |
| QuizModel.ExactlyOneCorrect | server/controllers/quizController.js:66-73 | the correct count is 1 exactly when some option k is correct and every other option is not, so the validator's count test is the "exactly one correct option" rule, in both directions |
| QuizModel.NoneCorrectIffZero | server/controllers/quizController.js:67-68 | the correct count is 0 exactly when no option is marked correct |
| QuizModel.OneCorrectOption | server/controllers/quizController.js:66-73 | an option list whose only correct entry is option k has a correct count of exactly 1 |
| QuizModel.NoCorrectOption | server/models/Quiz.js:8 | options all left at the default `isCorrect: false` have a correct count of 0 |
| QuizModel.SchemaLeavesOptionsOpen | server/models/Quiz.js:3-12 | the schema accepts a question with two options that are both correct: option and correct counts are bounded only by the controller |
| CertificateModel.StatusNameInjective | server/models/CertificateRequest.js:18-22 | the three enum strings identify the three statuses one to one |
| CertificateModel.NewRequest | server/models/CertificateRequest.js:18-32 | a new request is pending, takes `now` as `appliedAt`, and has no approvedAt, certificateUrl or certificateId |
| CertificateModel.AssignCertificateId | server/models/CertificateRequest.js:42-47 | the hook only ever changes `certificateId`; a new document always ends with one; an existing id is never replaced; a save of an existing document changes nothing |
| CertificateModel.CertificateIdStable | server/models/CertificateRequest.js:42-47 | once assigned, a certificate id survives any sequence of later saves |
| CertificateModel.CertificateUrl | server/controllers/certificateController.js:582 | the stored address is `/certificates/` + certificateId + `.pdf` |
| Store.FindUser | server/controllers/quizController.js:543 | `findById` finds a stored user with that id, and finds none exactly when no user has it |
| Store.FindOwnedCourse | server/controllers/quizController.js:39-45 | finds a course with that id and that educator, and none exactly when no course matches both |
| Store.FindActiveQuizOfCourse | server/controllers/quizController.js:569 | finds an active quiz of the course, and none exactly when the course has no active quiz |
| Store.FindCourse | server/controllers/quizController.js:401 | `findById` finds a stored course with that id, and none exactly when no course has it |
| Store.FindQuiz | server/controllers/quizController.js:724 | finds a stored quiz with that id, and none exactly when no quiz has it |
| Store.FindQuizOfCourse | server/controllers/quizController.js:48 | finds a quiz of the course, and none exactly when the course has no quiz |
| Store.FindProgress | server/controllers/quizController.js:397 | finds the progress record of that student and course, and none exactly when there is none |
| Store.FindRequestOf | server/controllers/certificateController.js:430-433 | finds a request of that user for that course, and none exactly when there is none |
| QuizValidation.ValidateQuestions | server/controllers/quizController.js:57-74 | no error exactly when every question has non-empty text, four options and one correct option; otherwise the 1-based number of the first offender, with the shape error reported before the correct-count error |
| QuizValidation.ToQuestion | server/models/Quiz.js:11 | a stored question keeps the submitted text and options, and an omitted point value becomes 1 |
| QuizValidation.ToQuestions | server/controllers/quizController.js:57-82 | the stored questions of an accepted list have four options and one correct option each |
| QuizAdmin.OrElse | server/controllers/quizController.js:83-85 | `v \|\| d`: a supplied non-zero number is kept, and a missing or zero one falls back to the default |
| QuizAdmin.TextOrElse | server/controllers/quizController.js:80-81 | `s \|\| d` for text: a non-empty string is kept, and the empty string falls back to the default |
| QuizAdmin.DraftQuiz | server/controllers/quizController.js:76-85 | the document built for a new quiz: the given course, owner, questions and id; title and description from non-empty body text or else the defaults; passingScore, timeLimit and maxAttempts from truthy body values or else 60, 30 and 1 (definition only; its effect is stated by CreateQuiz) |
| QuizAdmin.CreateQuiz | server/controllers/quizController.js:7-102 | the checks run in order: course id, questions array, ownership, no quiz yet for the course, question validation, schema, fresh id; each refusal happens exactly when the earlier checks pass and its own fails, and the request succeeds exactly when all pass; the new quiz is active, has the submitted questions, the non-empty body title and description or else "Course Quiz" and "Test your knowledge with this quiz", a total equal to their points, and passingScore, timeLimit and maxAttempts from truthy body values or else 60, 30 and 1; at most one quiz per course is preserved |
| QuizAdmin.UpdateQuiz | server/controllers/quizController.js:216-270 | an unowned quiz is not found; failed question validation of an owned quiz is an error and changes nothing; a schema refusal happens exactly when the overwritten document is invalid; the update succeeds exactly when the quiz is owned, any supplied questions pass and the overwritten document is valid; success replaces the quiz in place, keeps id, course, owner and active flag, overwrites only truthy supplied fields, and recomputes the total |
| QuizAdmin.OwnedQuizIndex | server/controllers/quizController.js:221 | finds the position of a quiz with that id owned by the educator, and none exactly when no such quiz exists |
| QuizAdmin.Overwrite | server/controllers/quizController.js:248-256 | the quiz with the supplied questions, the non-empty title and description and the truthy numbers written over the stored ones (definition only; its effect is stated by UpdateQuiz) |
| QuizAdmin.GetQuizByCourse | server/controllers/quizController.js:184-213 | refused unless the educator owns the course, then refused exactly when the course has no quiz; succeeds exactly when the course is owned and has a quiz, returning a stored quiz of that course |
| QuizAdmin.DeleteQuiz | server/controllers/quizController.js:273-297 | only the owner deletes; the removed quiz is the first one with the requested id, and the store after the call is the store before with only that entry cut out, so users, courses, progress, results and requests are unchanged; one quiz per course still holds |
| QuizAdmin.EducatorCoursesForQuiz | server/controllers/quizController.js:300-328 | one entry per course the educator owns, flagged with whether the course has a quiz |
| Scoring.DetailFor | server/controllers/quizController.js:756-768 | an answer detail records the indices and correctness, and earns the question's points exactly when the chosen option is correct |
| Scoring.Evaluate | server/controllers/quizController.js:751-769 | fails exactly when an index is out of range; otherwise one detail per answer, in order, and the score is the sum of the details' points |
| Scoring.ScoreIsCorrectPoints | server/controllers/quizController.js:751-769 | the evaluator's score equals the reference sum of question points over correctly answered questions |
| Scoring.PercentOf | server/controllers/quizController.js:771 | the percentage is score/total×100 for a non-zero total, NaN for 0/0 and +Infinity for a positive score over 0 |
| Scoring.MeetsThreshold | server/controllers/quizController.js:772 | `percentage >= passingScore`, inclusive, false for NaN (definition only; PassTestIsCrossMultiplied characterises it) |
| Scoring.PassTestIsCrossMultiplied | server/controllers/quizController.js:771-772 | `percentage >= passingScore` holds exactly when the cross-multiplied integer test holds, equality passing |
| Scoring.ZeroTotalNeverPasses | server/controllers/quizController.js:771-772 | when the question points are non-negative and sum to 0, every submission scores 0 and fails |
| ScoreBounds.ScoreWithinAnswered | server/controllers/quizController.js:751-769 | with distinct in-range answers, the score is at most the points of the questions answered |
| ScoreBounds.ScoreAtMostTotal | server/controllers/quizController.js:751-769 | with distinct in-range answers and non-negative points, the score is at most the quiz total |
| ScoreBounds.AllCorrectScoresTotal | server/controllers/quizController.js:751-769 | answering every question once, correctly, scores exactly the total |
| ScoreBounds.ScoreEqualsAnswered | server/controllers/quizController.js:751-769 | distinct correct answers score exactly the points of the questions answered |
| ScoreBounds.RepeatedAnswerCountsTwice | server/controllers/quizController.js:755-768 | answers are not deduplicated: a repeated correct answer scores twice and can exceed the total |
| Attempts.AttemptsOf | server/controllers/quizController.js:583-586 | the counted attempts are stored results of that user and quiz, and every such result is among them |
| Attempts.AttemptsOfIsFilter | server/controllers/quizController.js:583-586 | the attempt list is the order-preserving filter of the results, so (by Seqs.FilterAtPositions) each of the user's results at the quiz is counted exactly once, in recorded order |
| Attempts.AttemptsOfAppend | server/controllers/quizController.js:775-788 | saving a result extends exactly the attempt list of its own user and quiz |
| Attempts.StripQuestion | server/controllers/quizController.js:602-609 | a question sent to a student keeps its text, points and option texts in order, and its options carry no correctness field |
| Attempts.GetQuizForStudent | server/controllers/quizController.js:535-625 | unknown user, not enrolled, no active quiz and cap reached are refused in that order; otherwise the stripped quiz (id, title, description, settings and questions without correctness copied from the active quiz) with currentAttempt = prior attempts + 1 |
| Attempts.SubmitQuiz | server/controllers/quizController.js:718-806 | quiz missing, not enrolled, cap reached, out-of-range answers and a taken result id are refused, each exactly when the earlier checks pass and its own fails, and save nothing; a submission passing all checks is saved; a saved attempt is appended with attemptNumber = prior + 1, the evaluator's score and details, `passed` equal to the cross-multiplied test, timeSpent defaulting to 0, and the attempt count never exceeds maxAttempts |
| Attempts.SubmitKeepsNumbering | server/controllers/quizController.js:739-788 | if the n-th recorded attempt of each user at each quiz has number n, a submission keeps it so |
| Attempts.NumberedMeansDistinctNumbers | server/models/QuizResult.js:58 | the index on (userId, quizId, attemptNumber) is not unique, but numbered ledgers still never repeat a number |
| Attempts.InsertByAttempt | server/controllers/quizController.js:819-822 | insertion into a list sorted by attempt number keeps it sorted and adds exactly that result |
| Attempts.SortByAttempt | server/controllers/quizController.js:819-822 | `sort({ attemptNumber: 1 })` returns the same results, ascending |
| Attempts.GetUserQuizResults | server/controllers/quizController.js:809-829 | fails exactly when the course has no quiz; otherwise the student's attempts at it, sorted ascending |
| Attempts.LatestResultIsLastAttempt | server/controllers/quizController.js:819-822 | in a numbered ledger the last listed result is the latest attempt, and its number is the attempt count |
| Attempts.ThreeOfFivePasses | server/controllers/quizController.js:751-772 | five one-point questions, pass mark 60, three right: score 3, exactly 60 percent, passed, timeSpent 0 |
| CourseCompletion.TotalLectures | server/controllers/quizController.js:409-417 | the total is the number of lectures across all chapters of the course, zero for a course without content |
| CourseCompletion.LectureTotalCounts | server/controllers/quizController.js:409-417 | the accumulated total is the number of lectures in all chapters, with missing chapter lists counting as none |
| CourseCompletion.CompletedLectures | server/controllers/quizController.js:422 | the completed count is 0 without a progress record, else the length of its completed list |
| CourseCompletion.ProgressTextRoundTrip | server/controllers/quizController.js:432 | the `completed/total` text reads back as the two counts |
| CourseCompletion.CompletionPercentage | server/controllers/quizController.js:433 | the percentage is 0 without lectures; with lectures it is exactly 100 when all are done and below 100 when some are missing |
| CourseCompletion.CheckCourseCompletion | server/controllers/quizController.js:386-440 | fails exactly for an unknown course; otherwise isCompleted holds exactly when completed = total > 0, and the progress text and percentage agree with the counts |
| CourseCompletion.CheckCourseCompletionAsWritten | server/controllers/quizController.js:397 | as written, every call fails with the ReferenceError reply |
| CourseCompletion.AsWrittenNeverReportsCompletion | server/controllers/quizController.js:386-440 | for a student who finished the only lecture, the intended check reports completion and the code as written reports failure |
| CertificateController.IsValidObjectId | server/controllers/certificateController.js:10-12 | an id is valid when the store's ObjectId test accepts it and it is exactly 24 characters long (definition only; the error clauses of ApplyForCertificate and GetCertificateRequests use it) |
| CertificateController.LatestPassed | server/controllers/certificateController.js:417-421 | finds a passed attempt of that user and quiz whose number no other passed attempt exceeds, and finds none exactly when there is no passed attempt |
| CertificateController.ApplyForCertificate | server/controllers/certificateController.js:363-462 | the seven checks fail in order (id, user, enrolment, course, quiz, passed attempt, prior request), each failure saves nothing and a prior request's status is reported; success appends one pending request, applied at the current time, that references the highest-numbered passed attempt |
| CertificateController.ApplyPreservesStore | server/controllers/certificateController.js:430-448 | a successful application keeps one request per student and course, distinct ids and distinct certificate ids, writes no rejection, and is then what the status lookup finds |
| CertificateController.SecondApplicationRefused | server/controllers/certificateController.js:430-440 | applying again after a successful application is refused as "already pending" |
| CertificateController.MarkApproved | server/controllers/certificateController.js:580-582 | approval sets status approved, approvedAt and the derived address, and changes nothing else |
| CertificateController.ApproveCertificate | server/controllers/certificateController.js:533-604 | bad id, missing request, caller not the course's educator and missing recipient are refused in that order with no change; success approves that request in place, whatever its prior status |
| CertificateController.ApprovalIgnoresEmail | server/controllers/certificateController.js:586-598 | whether approval succeeds, and the store it leaves, do not depend on the email outcome |
| CertificateController.ApprovePreservesStore | server/controllers/certificateController.js:580-584 | approval keeps the request store's invariants, writes no rejection, and keeps every request's owner, course, id and certificate id |
| CertificateController.ApprovedStaysAtIndex | server/controllers/certificateController.js:547-584 | after approval, looking the request up by id finds it at the same place |
| CertificateController.ApprovalFromAnyStatus | server/controllers/certificateController.js:580-584 | a rejected request becomes approved, and an approved request can be approved again with a new approvedAt |
| CertificateController.ApprovalVisibleInStatus | server/controllers/certificateController.js:607-628 | with one request per student and course, the student's lookup returns the approved request |
| CertificateController.GetCertificateStatus | server/controllers/certificateController.js:607-628 | the student's request for the course, or none exactly when none exists |
| CertificateController.StatusAfterApproval | server/controllers/certificateController.js:580-628 | once a student's request is approved, the status lookup reports approved, the approval time and the derived address |
| CertificateController.ViewOf | server/controllers/certificateController.js:492-510 | a listed request names its requester exactly when the user exists, with id, name, email and picture taken from that stored user, and carries a result summary exactly when the referenced result exists, with score, total, percentage and passed taken from that stored result |
| CertificateController.CourseRequestsNewestFirst | server/controllers/certificateController.js:491-493 | entry k is the request at the k-th largest store position among the course's requests (Seqs.Positions, ascending and complete): every request of the course is listed exactly once, and store positions decrease along the list, newest first |
| CertificateController.NewestFirstIsTheCourse | server/controllers/certificateController.js:491-493 | the newest-first list holds stored requests of that course only, and every request of the course is in it |
| CertificateController.GetCertificateRequests | server/controllers/certificateController.js:465-530 | bad id and unowned course are refused; otherwise one enriched entry per request of the course, newest first |
| CertificateController.DistinctPassedUsers | server/controllers/certificateController.js:648-651 | the distinct user ids have no repeats and are exactly the users with a passed result for the quiz |
| CertificateController.StatsFor | server/controllers/certificateController.js:637-657 | studentsPassedQuiz is 0 without a quiz, else the number of distinct users who passed; totalEnrolled is the course's enrolment count |
| CertificateController.QuizCompletionStats | server/controllers/certificateController.js:631-668 | one entry per course the educator owns, in store order |
| CertificateController.RepeatedPassCountsOnce | server/controllers/certificateController.js:648-654 | another passed attempt (any id, any attempt number) by a student already counted as passed leaves the statistics unchanged |
| QuizPage.FormatTime | client/src/pages/student/Quiz.jsx:125-129 | the clock shows minutes, a colon and two-digit seconds, and reading it back with ParseClock gives the number of seconds |
| QuizPage.TimeSpentTextIsFormatTime | client/src/pages/student/Quiz.jsx:197 | the result screen's time-spent text is the same as the countdown clock's format |
| QuizPage.InitSheet | client/src/pages/student/Quiz.jsx:50 | the answer sheet starts with one empty entry per question |
| QuizPage.SelectAnswer | client/src/pages/student/Quiz.jsx:67-71 | selecting an answer sets only that question's entry |
| QuizPage.Package | client/src/pages/student/Quiz.jsx:94-97 | the submitted answers are answered questions, each indexed by its position and carrying its selection, in increasing question order |
| QuizPage.PackageComplete | client/src/pages/student/Quiz.jsx:94-97 | every answered question is submitted |
| QuizPage.UnansweredLeftOut | client/src/pages/student/Quiz.jsx:96 | an unanswered question is not submitted |
| QuizPage.PackagedSheetIsScorable | client/src/pages/student/Quiz.jsx:94-97 | a sheet filled from the stripped quiz packages to answers the server scores without error, each question at most once, so the score stays within the total |
| QuizPage.Next | client/src/pages/student/Quiz.jsx:73-77 | Next advances except on the last question and stays within range |
| QuizPage.Previous | client/src/pages/student/Quiz.jsx:79-83 | Previous goes back except on the first question |
| QuizPage.WalkStaysInRange | client/src/pages/student/Quiz.jsx:73-83 | no sequence of Next and Previous clicks leaves the question range |
| QuizPage.TimeSpentCountsTicks | client/src/pages/student/Quiz.jsx:49 | starting from timeLimit×60, after k ticks the reported timeSpent is k, capped at the limit |
| QuizPage.TryAgainOffered | client/src/pages/student/Quiz.jsx:209 | "Try Again" is offered after a failed attempt whose number is below the cap (definition only; TryAgainMatchesServerCap relates it to the server) |
| QuizPage.TryAgainMatchesServerCap | client/src/pages/student/Quiz.jsx:209 | after a submission, "Try Again" shows exactly when the attempt failed and the server would accept another attempt |
| EnrollmentsPage.EntryFor | client/src/pages/student/MyEnrollments.jsx:32-41 | a progress entry has the course's lecture count and a completed count of 0 without a progress record |
| EnrollmentsPage.FindEntry | client/src/pages/student/MyEnrollments.jsx:250 | finds an entry for the course, and none exactly when there is none |
| EnrollmentsPage.CompletedOnPage | client/src/pages/student/MyEnrollments.jsx:249-262 | a course counts as completed on the page when its progress entry exists and all of at least one lecture are done (definition only; PageAgreesWithServer relates it to the server) |
| EnrollmentsPage.PageAgreesWithServer | client/src/pages/student/MyEnrollments.jsx:249-262 | given the same lecture count and progress record, the page's completion test agrees with the server's intended check |
| EnrollmentsPage.LatestResult | client/src/pages/student/MyEnrollments.jsx:65-69 | the kept result is the last of a successful, non-empty results reply |
| EnrollmentsPage.LatestResultIsMostRecent | client/src/pages/student/MyEnrollments.jsx:65-69 | with the server's ascending order the kept result is the latest attempt |
| EnrollmentsPage.CanApply | client/src/pages/student/MyEnrollments.jsx:265-281 | applying is enabled when there is no certificate status yet, the course is completed on the page and the latest result passed (definition only; PageApplyMeetsServerGate relates it to the server) |
| EnrollmentsPage.PageApplyMeetsServerGate | client/src/pages/student/MyEnrollments.jsx:265-281 | when the page enables applying from the server's replies, the server's passed-attempt and no-prior-request checks pass |
| EnrollmentsPage.CertificateButton | client/src/pages/student/MyEnrollments.jsx:284-327 | pending is disabled; approved is enabled as "Download Certificate"; rejected is disabled; with no status the button is disabled exactly when the student cannot apply |
| EnrollmentsPage.CertificateClickAction | client/src/pages/student/MyEnrollments.jsx:329-339 | a click applies exactly when there is no status, opens the stored address exactly when approved, and otherwise does nothing |
| EnrollmentsPage.QuizButtonClick | client/src/pages/student/MyEnrollments.jsx:182-196 | the quiz is requested exactly when the course is completed on the page; otherwise a progress warning is shown, built from the page's completed and total lecture counts for the course (0 and 0 without an entry) |
| EnrollmentsPage.ClickActsOnlyWhenEnabled | client/src/pages/student/MyEnrollments.jsx:284-339 | when the student may apply, a click does something exactly when the certificate button is enabled |
| AddQuizPage.InitQuestions | client/src/pages/educator/AddQuiz.jsx:48-60 | n questions, each with no text, four empty options none correct, and 1 point |
| AddQuizPage.SetQuestionText | client/src/pages/educator/AddQuiz.jsx:84-88 | a text edit changes only that question's text |
| AddQuizPage.SetOptionText | client/src/pages/educator/AddQuiz.jsx:91-95 | an option edit changes that one option's text only |
| AddQuizPage.SetCorrectAnswer | client/src/pages/educator/AddQuiz.jsx:98-105 | the chosen option becomes the only correct one of its question; texts, points and other questions stay |
| AddQuizPage.CorrectAnswerIsUnique | client/src/pages/educator/AddQuiz.jsx:98-105 | after choosing, that question has exactly one correct option |
| AddQuizPage.PointsFromInput | client/src/pages/educator/AddQuiz.jsx:110 | input that parses to NaN or 0 becomes 1; any other number is kept |
| AddQuizPage.SetPoints | client/src/pages/educator/AddQuiz.jsx:108-112 | a points edit changes only that question's points |
| AddQuizPage.EditsKeepShape | client/src/pages/educator/AddQuiz.jsx:84-112 | no edit changes the number of questions or the four options per question |
| AddQuizPage.SelectCourse | client/src/pages/educator/AddQuiz.jsx:63-73 | choosing a known course names the quiz "<title> Quiz" with description "Quiz for <title>" |
| AddQuizPage.QuestionProblem | client/src/pages/educator/AddQuiz.jsx:126-151 | a question's first failing check, in the order text, options, correct count, points |
| AddQuizPage.ValidateForm | client/src/pages/educator/AddQuiz.jsx:115-154 | refuses with no course, then a blank title, then the first failing question in order; accepts exactly when everything holds |
| AddQuizPage.ValidFormPassesServerCheck | client/src/pages/educator/AddQuiz.jsx:115-154 | a form that passes its own validation passes the server's question check, and the stored questions keep the form's texts, options and points |
| AddQuizPage.Payload | client/src/pages/educator/AddQuiz.jsx:167-175 | the posted body names the selected course and title, and each posted question is stored by the server as the form's question |
| AddQuizPage.ResetSettings | client/src/pages/educator/AddQuiz.jsx:196-204 | after a create the form returns to no course, 5 questions, empty title, passing score 60, time limit 30 and 1 attempt |
| AddQuizPage.ResetAsWritten | client/src/pages/educator/AddQuiz.jsx:196-205 | the reset as written empties the question list and rebuilds it only when the number of questions was not already 5 |
| AddQuizPage.ResetAsWrittenLosesQuestions | client/src/pages/educator/AddQuiz.jsx:48-60 | after a create with 5 questions the form holds none, and it then validates and posts an empty list the server accepts |
| AddQuizPage.ResetAfterCreate | client/src/pages/educator/AddQuiz.jsx:196-205 | the intended reset shows as many blank questions as its question count |
| AddQuizPage.ResetFormNeedsQuestions | client/src/pages/educator/AddQuiz.jsx:115-133 | after the intended reset the form is refused until question 1 has text |
| CertificateRequestsPage.RowOf | client/src/pages/educator/CertificateRequests.jsx:35 | a fetched row carries the request's id, status, address and approval time, with no email flag |
| CertificateRequestsPage.FetchAllowed | client/src/pages/educator/CertificateRequests.jsx:17-22 | the page fetches only for a route parameter of exactly 24 characters (definition only; FetchAllowedForValidIds relates it to the server's id test) |
| CertificateRequestsPage.FetchAllowedForValidIds | client/src/pages/educator/CertificateRequests.jsx:17-22 | every id the server would accept is 24 characters long, so the page fetches for it |
| CertificateRequestsPage.ApproveButtonText | client/src/pages/educator/CertificateRequests.jsx:98-103 | "✅ Approved & Email Sent" when approved with email sent, "✅ Approved" when approved otherwise, "Approve Certificate" in every other case |
| CertificateRequestsPage.ApproveDisabled | client/src/pages/educator/CertificateRequests.jsx:105-108 | the approve button is disabled for an approved request and while its approval is in flight (definition only; ActionFor states the button it yields) |
| CertificateRequestsPage.ActionFor | client/src/pages/educator/CertificateRequests.jsx:226-259 | the approve button appears only for pending rows, is disabled exactly while that approval is in flight, and otherwise reads "Approve Certificate" |
| CertificateRequestsPage.ApplyApproval | client/src/pages/educator/CertificateRequests.jsx:75-85 | only rows with the approved id change, to approved with the returned address |
| CertificateRequestsPage.ApprovedRowMatchesStore | client/src/pages/educator/CertificateRequests.jsx:227-260 | after the page applies the server's reply, the row shows the stored status and address, offers no approve button, and its caption tells whether the email went out |

## Left out

- Email delivery (transport, HTML, the test-email route and page) is network I/O. Its outcome is the `emailSent` parameter.
- Queries, `populate`, `Promise.all` and timestamps are modelled as sequences. `createdAt` is taken to increase in insertion order, so "newest first" is reverse insertion order.
- Check-then-insert races (the attempt cap, request uniqueness) are not modelled. Each handler is one atomic step.
- The `CERT-<time>-<random>` generator and `mongoose.Types.ObjectId.isValid` are foreign code. They are parameters, and only the visible length-24 conjunct is modelled.
- Floating point is not modelled. Percentages are exact rationals, so binary rounding at the pass boundary (such as 57/100×100) is left out. The `Math.round` of the reply and of the button text are left out as well.
- Mongoose's refusal of a `NaN` percentage on save is library behaviour the source does not show, so a 0/0 attempt is saved with a NaN percentage.
- JavaScript coercions of malformed bodies (a non-array `answers`, string numbers, a missing body) are not modelled. Option indices on the client are naturals, because they come from the rendered buttons.
- `LatestPassed`: the sort order among equal attempt numbers is unspecified by the store. The model takes the earliest recorded one.
- `checkCourseCompletion`'s percentage is exact rather than floating point (see Findings for the handler's runtime failure).
- The commented-out earlier handler versions are dead code and are left out.
- Authentication, payments, uploads, course CRUD, routing and bootstrap are thin wrappers over other services and are left out.
- Rendering, toasts, axios calls, the interval timer and auto-submit are left out. The countdown is modelled only as ticks.
- The default branch of `getCertificateButtonInfo` cannot occur: the status enum has exactly three values.
- The request list's `course` summary and the capitalised status label are presentation only and are left out.

## Findings

| source | as written | input that shows it | evidently intended | confidence | as-written member | corrected member |
|---|---|---|---|---|---|---|
| server/controllers/quizController.js:397 | `CourseProgress` is used but never imported (imports at lines 1-4), so the handler always throws and replies with failure | any request, e.g. a student who finished the only lecture of a course | completion computed from the progress record and lecture count | high, not executed | CourseCompletion.CheckCourseCompletionAsWritten | CourseCompletion.CheckCourseCompletion |
| client/src/pages/educator/AddQuiz.jsx:196-205 | the reset empties the question list and sets the count to 5; the list is rebuilt only when the count changes | a successful create with the default 5 questions leaves the form at 0 questions, and validation then accepts an empty list | five blank questions after reset | medium, not executed | AddQuizPage.ResetAsWritten | AddQuizPage.ResetAfterCreate |

=== FILE: add_quiz_page.dfy ===
/** The educator's quiz-creation form: blank questions, the edits the form
    allows, its validation and its reset after a successful create. */
module AddQuizPage {
  import opened Wrappers
  import opened Text
  import opened QuizModel
  import opened QuizValidation
  import opened QuizAdmin

  /** A blank question: no text, four empty options, none correct, one point. */
  function BlankQuestion(): (q: Question)
    ensures q.questionText == "" && q.points == 1 && |q.options| == 4
    ensures forall j :: 0 <= j < 4 ==> q.options[j] == QuizOption("", false)
  {
    Question("", seq(4, _ => QuizOption("", false)), 1)
  }

  /** The question list built whenever the number of questions changes. */
  function InitQuestions(n: nat): (qs: seq<Question>)
    ensures |qs| == n
    ensures forall i :: 0 <= i < n ==> qs[i] == BlankQuestion()
  {
    seq(n, _ => BlankQuestion())
  }

  /** Every question has the four option slots the form renders. */
  predicate FourOptionsEach(qs: seq<Question>) {
    forall i :: 0 <= i < |qs| ==> |qs[i].options| == 4
  }

  /** `handleQuestionChange`. */
  function SetQuestionText(qs: seq<Question>, i: nat, text: string): (r: seq<Question>)
    requires i < |qs|
    ensures |r| == |qs| && r[i] == qs[i].(questionText := text)
    ensures forall k :: 0 <= k < |qs| && k != i ==> r[k] == qs[k]
  {
    qs[i := qs[i].(questionText := text)]
  }

  /** `handleOptionChange`. */
  function SetOptionText(qs: seq<Question>, i: nat, j: nat, text: string): (r: seq<Question>)
    requires i < |qs| && j < |qs[i].options|
    ensures |r| == |qs| && |r[i].options| == |qs[i].options|
    ensures r[i].options[j] == qs[i].options[j].(optionText := text)
    ensures forall m :: 0 <= m < |qs[i].options| && m != j ==> r[i].options[m] == qs[i].options[m]
    ensures r[i].questionText == qs[i].questionText && r[i].points == qs[i].points
    ensures forall k :: 0 <= k < |qs| && k != i ==> r[k] == qs[k]
  {
    var opts := qs[i].options;
    qs[i := qs[i].(options := opts[j := opts[j].(optionText := text)])]
  }

  /** `handleCorrectAnswerChange`: the chosen option becomes the only correct
      one of its question; texts, points and other questions stay. */
  function SetCorrectAnswer(qs: seq<Question>, i: nat, j: nat): (r: seq<Question>)
    requires i < |qs| && j < |qs[i].options|
    ensures |r| == |qs| && |r[i].options| == |qs[i].options|
    ensures forall m :: 0 <= m < |r[i].options| ==>
              r[i].options[m].isCorrect == (m == j) && r[i].options[m].optionText == qs[i].options[m].optionText
    ensures r[i].questionText == qs[i].questionText && r[i].points == qs[i].points
    ensures forall k :: 0 <= k < |qs| && k != i ==> r[k] == qs[k]
  {
    var opts := qs[i].options;
    var marked := seq(|opts|, m requires 0 <= m < |opts| => opts[m].(isCorrect := m == j));
    qs[i := qs[i].(options := marked)]
  }

  /** After choosing a correct answer that question has exactly one. */
  lemma CorrectAnswerIsUnique(qs: seq<Question>, i: nat, j: nat)
    requires i < |qs| && j < |qs[i].options|
    ensures CorrectCount(SetCorrectAnswer(qs, i, j)[i].options) == 1
  {
    OneCorrectOption(SetCorrectAnswer(qs, i, j)[i].options, j);
  }

  /** The points typed for a question: `parsed` is `None` when the input is
      not a number, and that and 0 both give 1. */
  function PointsFromInput(parsed: Option<int>): (p: int)
    ensures parsed.None? ==> p == 1
    ensures parsed.Some? && parsed.value == 0 ==> p == 1
    ensures parsed.Some? && parsed.value != 0 ==> p == parsed.value
  {
    match parsed
    case None => 1
    case Some(v) => if v == 0 then 1 else v
  }

  /** `handlePointsChange`. */
  function SetPoints(qs: seq<Question>, i: nat, parsed: Option<int>): (r: seq<Question>)
    requires i < |qs|
    ensures |r| == |qs| && r[i] == qs[i].(points := PointsFromInput(parsed))
    ensures forall k :: 0 <= k < |qs| && k != i ==> r[k] == qs[k]
  {
    qs[i := qs[i].(points := PointsFromInput(parsed))]
  }

  /** None of the form's edits changes the number of questions or of options. */
  lemma EditsKeepShape(qs: seq<Question>, i: nat, j: nat, text: string, parsed: Option<int>)
    requires FourOptionsEach(qs) && i < |qs| && j < 4
    ensures FourOptionsEach(SetQuestionText(qs, i, text))
    ensures FourOptionsEach(SetOptionText(qs, i, j, text))
    ensures FourOptionsEach(SetCorrectAnswer(qs, i, j))
    ensures FourOptionsEach(SetPoints(qs, i, parsed))
  {
  }

  /** The form's settings, title and questions. */
  datatype Form = Form(
    selectedCourse: string,
    numberOfQuestions: nat,
    title: string,
    description: string,
    passingScore: int,
    timeLimit: int,
    maxAttempts: int,
    questions: seq<Question>)

  /** `handleCourseSelect`: choosing a known course also names the quiz after it. */
  function SelectCourse(f: Form, courseId: string, courseTitle: Option<string>): (r: Form)
    ensures r.selectedCourse == courseId && r.questions == f.questions
    ensures courseTitle.Some? ==> r.title == courseTitle.value + " Quiz" && r.description == "Quiz for " + courseTitle.value
    ensures courseTitle.None? ==> r == f.(selectedCourse := courseId)
  {
    match courseTitle
    case None => f.(selectedCourse := courseId)
    case Some(t) => f.(selectedCourse := courseId, title := t + " Quiz", description := "Quiz for " + t)
  }

  /** The reasons `validateForm` refuses, with the 1-based question number. */
  datatype FormError =
    | NoCourse
    | BlankTitle
    | BlankQuestionText(number: nat)
    | BlankOption(number: nat)
    | NotOneCorrect(number: nat)
    | PointsBelowOne(number: nat)

  function FormMessage(e: FormError): string {
    match e
    case NoCourse => "Please select a course"
    case BlankTitle => "Please enter quiz title"
    case BlankQuestionText(n) => "Please enter question " + NatToString(n)
    case BlankOption(n) => "Please enter all options for question " + NatToString(n)
    case NotOneCorrect(n) => "Please select exactly one correct answer for question " + NatToString(n)
    case PointsBelowOne(n) => "Points for question " + NatToString(n) + " must be at least 1"
  }

  predicate OptionsFilled(q: Question) {
    forall j :: 0 <= j < |q.options| ==> !IsBlank(q.options[j].optionText)
  }

  /** Everything the form demands of one question. */
  predicate QuestionReady(q: Question) {
    !IsBlank(q.questionText) && OptionsFilled(q) && CorrectCount(q.options) == 1 && q.points >= 1
  }

  /** The first failing check of question `q` (numbered `n`), in the form's order. */
  function QuestionProblem(q: Question, n: nat): (r: Option<FormError>)
    ensures r.None? <==> QuestionReady(q)
    ensures r.Some? ==> r.value in {BlankQuestionText(n), BlankOption(n), NotOneCorrect(n), PointsBelowOne(n)}
    ensures r == Some(BlankQuestionText(n)) <==> IsBlank(q.questionText)
    ensures r == Some(BlankOption(n)) <==> !IsBlank(q.questionText) && !OptionsFilled(q)
    ensures r == Some(NotOneCorrect(n)) <==> !IsBlank(q.questionText) && OptionsFilled(q) && CorrectCount(q.options) != 1
  {
    if IsBlank(q.questionText) then Some(BlankQuestionText(n))
    else if !OptionsFilled(q) then Some(BlankOption(n))
    else if CorrectCount(q.options) != 1 then Some(NotOneCorrect(n))
    else if q.points < 1 then Some(PointsBelowOne(n))
    else None
  }

  function FirstQuestionProblem(qs: seq<Question>, i: nat): (r: Option<FormError>)
    requires i <= |qs|
    ensures r.None? <==> forall k :: i <= k < |qs| ==> QuestionReady(qs[k])
    ensures r.Some? ==> exists k :: i <= k < |qs| && r == QuestionProblem(qs[k], k + 1)
                                    && forall m :: i <= m < k ==> QuestionReady(qs[m])
    decreases |qs| - i
  {
    if i == |qs| then None
    else match QuestionProblem(qs[i], i + 1)
      case Some(e) => Some(e)
      case None => FirstQuestionProblem(qs, i + 1)
  }

  /** `validateForm`: course, then title, then question by question. */
  function ValidateForm(f: Form): (r: Option<FormError>)
    ensures r == Some(NoCourse) <==> f.selectedCourse == ""
    ensures r == Some(BlankTitle) <==> f.selectedCourse != "" && IsBlank(f.title)
    ensures r.None? <==> f.selectedCourse != "" && !IsBlank(f.title)
                         && forall k :: 0 <= k < |f.questions| ==> QuestionReady(f.questions[k])
    ensures r.Some? && r.value !in {NoCourse, BlankTitle} ==>
              exists k :: 0 <= k < |f.questions| && r == QuestionProblem(f.questions[k], k + 1)
                          && forall m :: 0 <= m < k ==> QuestionReady(f.questions[m])
  {
    if f.selectedCourse == "" then Some(NoCourse)
    else if IsBlank(f.title) then Some(BlankTitle)
    else FirstQuestionProblem(f.questions, 0)
  }

  /** The body the form posts: the server stores each of its questions as
      the form's question, text, options and points alike. */
  function Payload(f: Form): (b: CreateBody)
    ensures b.courseId == f.selectedCourse && b.title == f.title && b.questions.Some?
    ensures |b.questions.value| == |f.questions|
    ensures forall i :: 0 <= i < |f.questions| ==> ToQuestion(b.questions.value[i]) == f.questions[i]
  {
    CreateBody(f.selectedCourse, f.title, f.description,
               Some(seq(|f.questions|, i requires 0 <= i < |f.questions| =>
                      QuestionInput(f.questions[i].questionText, Some(f.questions[i].options), Some(f.questions[i].points)))),
               Some(f.passingScore), Some(f.timeLimit), Some(f.maxAttempts))
  }

  lemma NonBlankNonEmpty(s: string)
    requires !IsBlank(s)
    ensures s != ""
  {
    if s == "" {
      assert IsBlank(s);
    }
  }

  /** A form that passes its own validation, with the four option slots it
      renders, passes the server's question check, and the quiz it stores
      keeps the form's texts and points. */
  lemma ValidFormPassesServerCheck(f: Form)
    requires ValidateForm(f).None? && FourOptionsEach(f.questions)
    ensures ValidateQuestions(Payload(f).questions.value).None?
    ensures Payload(f).courseId != ""
    ensures forall i :: 0 <= i < |f.questions| ==>
              ToQuestion(Payload(f).questions.value[i]) == f.questions[i]
              && QuestionSchemaValid(ToQuestion(Payload(f).questions.value[i]))
  {
    var qs := Payload(f).questions.value;
    forall i | 0 <= i < |qs| ensures Acceptable(qs[i]) && QuestionSchemaValid(f.questions[i]) {
      assert QuestionReady(f.questions[i]);
      NonBlankNonEmpty(f.questions[i].questionText);
      forall j | 0 <= j < |f.questions[i].options| ensures f.questions[i].options[j].optionText != "" {
        NonBlankNonEmpty(f.questions[i].options[j].optionText);
      }
    }
  }

  // ---------------------------------------------------------------------------
  // Reset after a successful create

  /** The settings after a reset, before the question list is rebuilt. */
  function ResetSettings(f: Form): (r: Form)
    ensures r.selectedCourse == "" && r.numberOfQuestions == 5 && r.title == "" && r.description == ""
    ensures r.passingScore == DefaultPassingScore && r.timeLimit == DefaultTimeLimit && r.maxAttempts == DefaultMaxAttempts
  {
    Form("", 5, "", "", DefaultPassingScore, DefaultTimeLimit, DefaultMaxAttempts, [])
  }

  /** The reset as written: the list is emptied, and it is rebuilt only if the
      number of questions actually changes to 5, since the rebuild runs on a
      change of that number. */
  function ResetAsWritten(f: Form): (r: Form)
    ensures r.(questions := []) == ResetSettings(f)
    ensures f.numberOfQuestions == 5 ==> r.questions == []
    ensures f.numberOfQuestions != 5 ==> r.questions == InitQuestions(5)
  {
    var base := ResetSettings(f);
    if f.numberOfQuestions == 5 then base else base.(questions := InitQuestions(5))
  }

  /** After a create made with the default five questions, the form says five
      questions but holds none, and once a course and a title are chosen again
      it validates and posts an empty question list, which the server accepts. */
  lemma ResetAsWrittenLosesQuestions(f: Form, courseId: string, title: string)
    requires f.numberOfQuestions == 5
    requires courseId != "" && !IsBlank(title)
    ensures ResetAsWritten(f).numberOfQuestions == 5 && ResetAsWritten(f).questions == []
    ensures var again := ResetAsWritten(f).(selectedCourse := courseId, title := title);
            ValidateForm(again).None? && Payload(again).questions == Some([])
            && ValidateQuestions(Payload(again).questions.value).None?
  {
  }

  /** The reset as evidently intended: five blank questions, matching the
      number shown. */
  function ResetAfterCreate(f: Form): (r: Form)
    ensures r.(questions := []) == ResetSettings(f)
    ensures |r.questions| == r.numberOfQuestions
    ensures forall i :: 0 <= i < |r.questions| ==> r.questions[i] == BlankQuestion()
  {
    ResetSettings(f).(questions := InitQuestions(ResetSettings(f).numberOfQuestions))
  }

  /** After the intended reset the form cannot be sent before question 1 is
      written, whatever course and title are chosen. */
  lemma ResetFormNeedsQuestions(f: Form, courseId: string, title: string)
    requires courseId != "" && !IsBlank(title)
    ensures ValidateForm(ResetAfterCreate(f).(selectedCourse := courseId, title := title)) == Some(BlankQuestionText(1))
  {
    var g := ResetAfterCreate(f).(selectedCourse := courseId, title := title);
    assert IsBlank(g.questions[0].questionText);
  }
}

=== FILE: attempts.dfy ===
/** The attempt ledger: the student's view of a quiz, submission with the
    attempt cap, and the ordered list of a student's results. */
module Attempts {
  import opened Wrappers
  import opened Ids
  import opened QuizModel
  import opened QuizResultModel
  import opened Scoring
  import opened Store
  import Seqs
  import Text

  /** The results of one user for one quiz, in the order they were recorded
      (the attempts the handler counts against the cap). */
  function AttemptsOf(results: seq<QuizResult>, userId: UserId, quizId: QuizId): (r: seq<QuizResult>)
    ensures |r| <= |results|
    ensures forall k :: 0 <= k < |r| ==> r[k] in results && r[k].userId == userId && r[k].quizId == quizId
    ensures forall k :: 0 <= k < |results| && results[k].userId == userId && results[k].quizId == quizId ==> results[k] in r
  {
    if |results| == 0 then []
    else
      var last := results[|results| - 1];
      AttemptsOf(results[..|results| - 1], userId, quizId)
      + (if last.userId == userId && last.quizId == quizId then [last] else [])
  }

  /** Appending a result extends exactly the attempt list it belongs to. */
  lemma AttemptsOfAppend(results: seq<QuizResult>, x: QuizResult, userId: UserId, quizId: QuizId)
    ensures AttemptsOf(results + [x], userId, quizId) ==
              AttemptsOf(results, userId, quizId) + (if x.userId == userId && x.quizId == quizId then [x] else [])
  {
    assert (results + [x])[..|results|] == results;
  }

  /** The test that picks a user's results at one quiz. */
  function AttemptBy(userId: UserId, quizId: QuizId): QuizResult -> bool {
    (x: QuizResult) => x.userId == userId && x.quizId == quizId
  }

  /** The attempt list is the order-preserving filter of the ledger: the
      user's results at the quiz, each once, in the order they were recorded
      (see `Seqs.FilterAtPositions`). */
  lemma {:induction false} AttemptsOfIsFilter(results: seq<QuizResult>, userId: UserId, quizId: QuizId)
    ensures AttemptsOf(results, userId, quizId) == Seqs.Filter(results, AttemptBy(userId, quizId))
    decreases |results|
  {
    if |results| > 0 {
      var n := |results| - 1;
      assert results == results[..n] + [results[n]];
      AttemptsOfIsFilter(results[..n], userId, quizId);
      Seqs.FilterAppend(results[..n], [results[n]], AttemptBy(userId, quizId));
      assert [results[n]][1..] == [];
    }
  }

  /** The ledger's numbering: the n-th recorded attempt of a user at a quiz has attemptNumber n. */
  ghost predicate Numbered(results: seq<QuizResult>) {
    forall u: UserId, q: QuizId, k: int :: 0 <= k < |AttemptsOf(results, u, q)| ==>
      AttemptsOf(results, u, q)[k].attemptNumber == k + 1
  }

  // ---------------------------------------------------------------------------
  // getQuizForStudent

  datatype StudentOption = StudentOption(optionText: string)
  datatype StudentQuestion = StudentQuestion(questionText: string, options: seq<StudentOption>, points: int)

  /** The quiz as sent to a student. Its options have no correctness field at all. */
  datatype StudentQuiz = StudentQuiz(
    id: QuizId,
    title: string,
    description: string,
    questions: seq<StudentQuestion>,
    timeLimit: int,
    totalPoints: int,
    passingScore: int,
    maxAttempts: int,
    currentAttempt: int)

  /** A question with its correct-answer markings stripped: same text, same
      options in the same order, same points. */
  function StripQuestion(q: Question): (r: StudentQuestion)
    ensures r.questionText == q.questionText && r.points == q.points
    ensures |r.options| == |q.options|
    ensures forall j :: 0 <= j < |q.options| ==> r.options[j].optionText == q.options[j].optionText
  {
    StudentQuestion(q.questionText,
                    seq(|q.options|, j requires 0 <= j < |q.options| => StudentOption(q.options[j].optionText)),
                    q.points)
  }

  datatype FetchError = UserNotFound | NotEnrolled | NoActiveQuiz | AttemptsExhausted(maxAttempts: int)

  function FetchMessage(e: FetchError): string {
    match e
    case UserNotFound => "User not found"
    case NotEnrolled => "You are not enrolled in this course"
    case NoActiveQuiz => "No quiz available for this course"
    case AttemptsExhausted(m) => "You have reached the maximum attempts (" + Text.IntToString(m) + ") for this quiz"
  }

  /** `getQuizForStudent`: refused for an unknown or unenrolled user, for a
      course without an active quiz, and once the prior attempts reach the cap;
      otherwise the stripped quiz and the number the next attempt will get. */
  function GetQuizForStudent(w: World, userId: UserId, courseId: CourseId): (r: Result<StudentQuiz, FetchError>)
    ensures (r == Err(UserNotFound)) <==> FindUser(w, userId).None?
    ensures (r == Err(NotEnrolled)) <==> FindUser(w, userId).Some? && !IsEnrolled(w, userId, courseId)
    ensures (r == Err(NoActiveQuiz)) <==> IsEnrolled(w, userId, courseId) && FindActiveQuizOfCourse(w, courseId).None?
    ensures r.Err? && r.error.AttemptsExhausted? ==>
      var q := FindActiveQuizOfCourse(w, courseId);
      q.Some? && |AttemptsOf(w.results, userId, q.value.id)| >= q.value.maxAttempts
      && r.error.maxAttempts == q.value.maxAttempts
    ensures r.Ok? ==>
      var q := FindActiveQuizOfCourse(w, courseId).value;
      && IsEnrolled(w, userId, courseId) && FindActiveQuizOfCourse(w, courseId).Some?
      && |AttemptsOf(w.results, userId, q.id)| < q.maxAttempts
      && r.value.currentAttempt == |AttemptsOf(w.results, userId, q.id)| + 1
      && r.value.id == q.id && r.value.title == q.title && r.value.description == q.description
      && r.value.maxAttempts == q.maxAttempts
      && r.value.totalPoints == q.totalPoints && r.value.passingScore == q.passingScore
      && r.value.timeLimit == q.timeLimit
      && |r.value.questions| == |q.questions|
      && forall i :: 0 <= i < |q.questions| ==> r.value.questions[i] == StripQuestion(q.questions[i])
  {
    if FindUser(w, userId).None? then Err(UserNotFound)
    else if !IsEnrolled(w, userId, courseId) then Err(NotEnrolled)
    else match FindActiveQuizOfCourse(w, courseId)
      case None => Err(NoActiveQuiz)
      case Some(q) =>
        var prior := |AttemptsOf(w.results, userId, q.id)|;
        if prior >= q.maxAttempts then Err(AttemptsExhausted(q.maxAttempts))
        else
          Ok(StudentQuiz(q.id, q.title, q.description,
                         seq(|q.questions|, i requires 0 <= i < |q.questions| => StripQuestion(q.questions[i])),
                         q.timeLimit, q.totalPoints, q.passingScore, q.maxAttempts, prior + 1))
  }

  // ---------------------------------------------------------------------------
  // submitQuiz

  /** The request body; `timeSpent` is `None` when omitted. */
  datatype SubmitBody = SubmitBody(quizId: QuizId, answers: seq<Answer>, timeSpent: Option<int>)

  /** `AnswerOutOfRange` is the exception the scoring loop throws on an index
      with no question or option behind it; nothing is saved. */
  datatype SubmitError = QuizNotFound | NotEnrolledInCourse | MaxAttemptsReached | AnswerOutOfRange | DuplicateKey

  /** The reply message of each refusal that has a fixed text. */
  function SubmitMessage(e: SubmitError): Option<string> {
    match e
    case QuizNotFound => Some("Quiz not found")
    case NotEnrolledInCourse => Some("You are not enrolled in this course")
    case MaxAttemptsReached => Some("Maximum attempts reached")
    case _ => None
  }

  /** Some stored result already has this id. */
  predicate HasResultId(results: seq<QuizResult>, id: ResultId) {
    exists i :: 0 <= i < |results| && results[i].id == id
  }

  /** `submitQuiz`. Each refusal happens exactly when the earlier checks
      pass and its own fails, and saves nothing; a submission passing them all
      is saved. A saved attempt gets the next attempt number, its score from
      the evaluator, and `passed` from the percentage test, which is the
      cross-multiplied comparison. */
  function SubmitQuiz(w: World, userId: UserId, body: SubmitBody, newId: ResultId): (r: Result<(World, QuizResult), SubmitError>)
    ensures (r == Err(QuizNotFound)) <==> FindQuiz(w, body.quizId).None?
    ensures (r == Err(NotEnrolledInCourse)) <==>
              FindQuiz(w, body.quizId).Some? && !IsEnrolled(w, userId, FindQuiz(w, body.quizId).value.courseId)
    ensures (r == Err(MaxAttemptsReached)) <==>
              FindQuiz(w, body.quizId).Some? && IsEnrolled(w, userId, FindQuiz(w, body.quizId).value.courseId)
              && |AttemptsOf(w.results, userId, body.quizId)| >= FindQuiz(w, body.quizId).value.maxAttempts
    ensures (r == Err(AnswerOutOfRange)) <==>
              && FindQuiz(w, body.quizId).Some? && IsEnrolled(w, userId, FindQuiz(w, body.quizId).value.courseId)
              && |AttemptsOf(w.results, userId, body.quizId)| < FindQuiz(w, body.quizId).value.maxAttempts
              && !AllInRange(FindQuiz(w, body.quizId).value.questions, body.answers)
    ensures (r == Err(DuplicateKey)) <==>
              && FindQuiz(w, body.quizId).Some? && IsEnrolled(w, userId, FindQuiz(w, body.quizId).value.courseId)
              && |AttemptsOf(w.results, userId, body.quizId)| < FindQuiz(w, body.quizId).value.maxAttempts
              && AllInRange(FindQuiz(w, body.quizId).value.questions, body.answers)
              && HasResultId(w.results, newId)
    ensures r.Ok? <==>
              && FindQuiz(w, body.quizId).Some? && IsEnrolled(w, userId, FindQuiz(w, body.quizId).value.courseId)
              && |AttemptsOf(w.results, userId, body.quizId)| < FindQuiz(w, body.quizId).value.maxAttempts
              && AllInRange(FindQuiz(w, body.quizId).value.questions, body.answers)
              && !HasResultId(w.results, newId)
    ensures r.Ok? ==>
      var (w', res) := r.value;
      var q := FindQuiz(w, body.quizId).value;
      var prior := |AttemptsOf(w.results, userId, body.quizId)|;
      && FindQuiz(w, body.quizId).Some? && IsEnrolled(w, userId, q.courseId)
      && prior < q.maxAttempts
      && AllInRange(q.questions, body.answers)
      && w' == w.(results := w.results + [res])
      && res.id == newId && res.userId == userId && res.quizId == body.quizId && res.courseId == q.courseId
      && res.attemptNumber == prior + 1
      && |AttemptsOf(w'.results, userId, body.quizId)| <= q.maxAttempts
      && res.score == CorrectPoints(q.questions, body.answers)
      && res.score == DetailPoints(res.answers)
      && |res.answers| == |body.answers|
      && (forall k :: 0 <= k < |body.answers| ==> res.answers[k] == DetailFor(q.questions, body.answers[k]))
      && res.totalPoints == q.totalPoints
      && res.percentage == PercentOf(res.score, q.totalPoints)
      && (res.passed <==> PassedExact(res.score, q.totalPoints, q.passingScore))
      && res.timeSpent == body.timeSpent.GetOr(DefaultTimeSpent)
  {
    match FindQuiz(w, body.quizId)
    case None => Err(QuizNotFound)
    case Some(q) =>
      if !IsEnrolled(w, userId, q.courseId) then Err(NotEnrolledInCourse)
      else
        var prior := |AttemptsOf(w.results, userId, body.quizId)|;
        if prior >= q.maxAttempts then Err(MaxAttemptsReached)
        else match Evaluate(q.questions, body.answers)
          case None => Err(AnswerOutOfRange)
          case Some(e) =>
            var percent := PercentOf(e.score, q.totalPoints);
            var res := QuizResult(newId, body.quizId, q.courseId, userId, e.score, q.totalPoints,
                                  percent, MeetsThreshold(percent, q.passingScore), prior + 1,
                                  e.details, body.timeSpent.GetOr(DefaultTimeSpent));
            if Seqs.FindIndex(w.results, (x: QuizResult) => x.id == newId).Some? then Err(DuplicateKey)
            else
              ScoreIsCorrectPoints(q.questions, body.answers);
              PassTestIsCrossMultiplied(e.score, q.totalPoints, q.passingScore);
              AttemptsOfAppend(w.results, res, userId, body.quizId);
              Ok((w.(results := w.results + [res]), res))
  }

  /** Submission keeps the ledger numbered: the n-th attempt is attempt number n. */
  lemma SubmitKeepsNumbering(w: World, userId: UserId, body: SubmitBody, newId: ResultId)
    requires Numbered(w.results)
    requires SubmitQuiz(w, userId, body, newId).Ok?
    ensures Numbered(SubmitQuiz(w, userId, body, newId).value.0.results)
  {
    var (w', res) := SubmitQuiz(w, userId, body, newId).value;
    forall u: UserId, q: QuizId, k: int | 0 <= k < |AttemptsOf(w'.results, u, q)|
      ensures AttemptsOf(w'.results, u, q)[k].attemptNumber == k + 1
    {
      AttemptsOfAppend(w.results, res, u, q);
      if k < |AttemptsOf(w.results, u, q)| {
        assert AttemptsOf(w'.results, u, q)[k] == AttemptsOf(w.results, u, q)[k];
      }
    }
  }

  /** In a numbered ledger no two attempts of a user at a quiz share a number,
      although the store's index on (userId, quizId, attemptNumber) is not unique.
      This is immediate from `Numbered`; the guarantee that the ledger stays
      numbered is `SubmitKeepsNumbering`. */
  lemma NumberedMeansDistinctNumbers(results: seq<QuizResult>, u: UserId, q: QuizId, i: int, j: int)
    requires Numbered(results)
    requires 0 <= i < j < |AttemptsOf(results, u, q)|
    ensures AttemptsOf(results, u, q)[i].attemptNumber != AttemptsOf(results, u, q)[j].attemptNumber
  {
  }

  // ---------------------------------------------------------------------------
  // getUserQuizResults

  predicate SortedByAttempt(s: seq<QuizResult>) {
    forall i, j :: 0 <= i < j < |s| ==> s[i].attemptNumber <= s[j].attemptNumber
  }

  /** Places `x` before the first element whose number is not smaller, so
      equal numbers keep their recorded order. */
  function InsertByAttempt(x: QuizResult, s: seq<QuizResult>): (r: seq<QuizResult>)
    requires SortedByAttempt(s)
    ensures SortedByAttempt(r)
    ensures multiset(r) == multiset(s) + multiset{x}
    ensures |r| == |s| + 1
    ensures |s| > 0 ==> r[0] == (if x.attemptNumber <= s[0].attemptNumber then x else s[0])
  {
    if |s| == 0 then [x]
    else if x.attemptNumber <= s[0].attemptNumber then [x] + s
    else
      var rest := InsertByAttempt(x, s[1..]);
      assert s == [s[0]] + s[1..];
      InsertedAtLeast(x, s[1..], rest, s[0].attemptNumber);
      [s[0]] + rest
  }

  /** Inserting into a list whose numbers are all at least `b` an element
      whose number exceeds `b` keeps every number at least `b`. */
  lemma InsertedAtLeast(x: QuizResult, s: seq<QuizResult>, r: seq<QuizResult>, b: int)
    requires forall k :: 0 <= k < |s| ==> b <= s[k].attemptNumber
    requires b < x.attemptNumber
    requires multiset(r) == multiset(s) + multiset{x}
    ensures forall k :: 0 <= k < |r| ==> b <= r[k].attemptNumber
  {
    forall k | 0 <= k < |r|
      ensures b <= r[k].attemptNumber
    {
      assert r[k] in multiset(r);
      if r[k] != x {
        assert r[k] in multiset(s);
      }
    }
  }

  /** The same results, ascending by attempt number. */
  function SortByAttempt(s: seq<QuizResult>): (r: seq<QuizResult>)
    ensures SortedByAttempt(r)
    ensures multiset(r) == multiset(s)
    ensures |r| == |s|
  {
    if |s| == 0 then []
    else
      assert s == [s[0]] + s[1..];
      InsertByAttempt(s[0], SortByAttempt(s[1..]))
  }

  datatype ResultsError = NoQuizForCourse

  /** `getUserQuizResults`: the student's attempts at the course's quiz, ascending by attempt number. */
  function GetUserQuizResults(w: World, userId: UserId, courseId: CourseId): (r: Result<seq<QuizResult>, ResultsError>)
    ensures r.Err? <==> FindQuizOfCourse(w, courseId).None?
    ensures r.Ok? ==> SortedByAttempt(r.value)
    ensures r.Ok? ==> multiset(r.value) == multiset(AttemptsOf(w.results, userId, FindQuizOfCourse(w, courseId).value.id))
  {
    match FindQuizOfCourse(w, courseId)
    case None => Err(NoQuizForCourse)
    case Some(q) => Ok(SortByAttempt(AttemptsOf(w.results, userId, q.id)))
  }

  /** Under the ledger's numbering, the last result of that list is the most
      recent attempt, and its number is the attempt count. */
  lemma LatestResultIsLastAttempt(w: World, userId: UserId, courseId: CourseId)
    requires Numbered(w.results)
    requires GetUserQuizResults(w, userId, courseId).Ok?
    requires |GetUserQuizResults(w, userId, courseId).value| > 0
    ensures var s := GetUserQuizResults(w, userId, courseId).value;
            s[|s| - 1].attemptNumber == |s|
            && forall k :: 0 <= k < |s| ==> s[k].attemptNumber <= s[|s| - 1].attemptNumber
  {
    var q := FindQuizOfCourse(w, courseId).value;
    var a := AttemptsOf(w.results, userId, q.id);
    var s := SortByAttempt(a);
    assert GetUserQuizResults(w, userId, courseId).value == s;
    NumberedAt(w.results, userId, q.id);
    SortedNumberedEndsWithCount(a, s);
  }

  /** The numbering of one user's attempts at one quiz. */
  lemma NumberedAt(results: seq<QuizResult>, u: UserId, q: QuizId)
    requires Numbered(results)
    ensures forall k :: 0 <= k < |AttemptsOf(results, u, q)| ==> AttemptsOf(results, u, q)[k].attemptNumber == k + 1
  {
  }

  /** A sorted rearrangement of attempts numbered 1..n ends with attempt n. */
  lemma SortedNumberedEndsWithCount(a: seq<QuizResult>, s: seq<QuizResult>)
    requires forall k :: 0 <= k < |a| ==> a[k].attemptNumber == k + 1
    requires multiset(s) == multiset(a) && SortedByAttempt(s) && |s| > 0
    ensures s[|s| - 1].attemptNumber == |s|
    ensures forall k :: 0 <= k < |s| ==> s[k].attemptNumber <= s[|s| - 1].attemptNumber
  {
    var last := s[|s| - 1];
    assert last in multiset(a);
    var m :| 0 <= m < |a| && a[m] == last;
    assert |s| == |a| by {
      assert |multiset(s)| == |multiset(a)|;
    }
    var top := a[|a| - 1];
    assert top in multiset(s);
    var t :| 0 <= t < |s| && s[t] == top;
    assert s[t].attemptNumber <= last.attemptNumber;
  }

  // ---------------------------------------------------------------------------
  // A worked submission

  function OnePointQuestion(correct: nat): Question
    requires correct < 4
  {
    Question("Q", seq(4, j => QuizOption("o", j == correct)), 1)
  }

  /** Five one-point questions, pass mark 60, three right answers: the attempt
      scores 3 of 5, i.e. 60 percent, and passes. */
  lemma ThreeOfFivePasses(w: World, userId: UserId, quizId: QuizId, newId: ResultId)
    requires FindQuiz(w, quizId).Some?
    requires var q := FindQuiz(w, quizId).value;
             q.questions == [OnePointQuestion(0), OnePointQuestion(1), OnePointQuestion(2), OnePointQuestion(3), OnePointQuestion(0)]
             && q.totalPoints == 5 && q.passingScore == 60
    requires SubmitQuiz(w, userId, SubmitBody(quizId, [Answer(0, 0), Answer(1, 1), Answer(2, 0), Answer(3, 3), Answer(4, 2)], None), newId).Ok?
    ensures var res := SubmitQuiz(w, userId, SubmitBody(quizId, [Answer(0, 0), Answer(1, 1), Answer(2, 0), Answer(3, 3), Answer(4, 2)], None), newId).value.1;
            res.score == 3 && res.percentage == Finite(60.0) && res.passed && res.timeSpent == 0
            && [res.answers[0].isCorrect, res.answers[1].isCorrect, res.answers[2].isCorrect, res.answers[3].isCorrect, res.answers[4].isCorrect]
               == [true, true, false, true, false]
  {
    var q := FindQuiz(w, quizId).value;
    var answers := [Answer(0, 0), Answer(1, 1), Answer(2, 0), Answer(3, 3), Answer(4, 2)];
    CorrectPointsCons(q.questions, answers);
    CorrectPointsCons(q.questions, answers[1..]);
    CorrectPointsCons(q.questions, answers[2..]);
    CorrectPointsCons(q.questions, answers[3..]);
    CorrectPointsCons(q.questions, answers[4..]);
    assert CorrectPoints(q.questions, answers) == 3;
    assert (3 as real / 5 as real) * 100.0 == 60.0;
    assert PassedExact(3, 5, 60);
  }
}

=== FILE: certificate_controller.dfy ===
/** The certificate handlers: the student's application gate, the educator's
    approval, and the read-only listings built on the request store. */
module CertificateController {
  import opened Wrappers
  import opened Ids
  import opened QuizModel
  import opened QuizResultModel
  import opened CertificateModel
  import opened Store
  import Seqs

  /** `isValidObjectId`: the document store's own id test, supplied as
      `isObjectId`, and a length of exactly 24 characters. */
  predicate IsValidObjectId(id: string, isObjectId: string -> bool) {
    isObjectId(id) && |id| == 24
  }

  // ---------------------------------------------------------------------------
  // Store invariants for certificate requests

  /** At most one request per student and course. */
  predicate OneRequestPerEnrolment(reqs: seq<CertificateRequest>) {
    forall i, j :: 0 <= i < j < |reqs| ==> !(reqs[i].userId == reqs[j].userId && reqs[i].courseId == reqs[j].courseId)
  }

  predicate DistinctRequestIds(reqs: seq<CertificateRequest>) {
    forall i, j :: 0 <= i < j < |reqs| ==> reqs[i].id != reqs[j].id
  }

  /** The unique index on `certificateId`. */
  predicate DistinctCertificateIds(reqs: seq<CertificateRequest>) {
    forall i, j :: 0 <= i < j < |reqs| && reqs[i].certificateId.Some? ==> reqs[i].certificateId != reqs[j].certificateId
  }

  /** Nothing in the handlers ever writes `rejected`. */
  predicate NoneRejected(reqs: seq<CertificateRequest>) {
    forall i :: 0 <= i < |reqs| ==> reqs[i].status != Rejected
  }

  predicate RequestStoreValid(reqs: seq<CertificateRequest>) {
    OneRequestPerEnrolment(reqs) && DistinctRequestIds(reqs) && DistinctCertificateIds(reqs)
  }

  // ---------------------------------------------------------------------------
  // applyForCertificate

  predicate PassedAttempt(x: QuizResult, userId: UserId, quizId: QuizId) {
    x.userId == userId && x.quizId == quizId && x.passed
  }

  /** The student's passed attempt at the quiz with the highest number (the
      earliest recorded one among equal numbers). */
  function LatestPassed(results: seq<QuizResult>, userId: UserId, quizId: QuizId): (r: Option<QuizResult>)
    ensures r.Some? ==> r.value in results && PassedAttempt(r.value, userId, quizId)
    ensures r.Some? ==> forall k :: 0 <= k < |results| && PassedAttempt(results[k], userId, quizId) ==>
                          results[k].attemptNumber <= r.value.attemptNumber
    ensures r.None? <==> forall k :: 0 <= k < |results| ==> !PassedAttempt(results[k], userId, quizId)
  {
    if |results| == 0 then None
    else
      var rest := LatestPassed(results[1..], userId, quizId);
      var x := results[0];
      assert forall k :: 1 <= k < |results| ==> results[k] == results[1..][k - 1];
      if !PassedAttempt(x, userId, quizId) then rest
      else if rest.Some? && rest.value.attemptNumber > x.attemptNumber then rest
      else Some(x)
  }

  datatype ApplyError =
    | InvalidCourseId
    | UserNotFound
    | NotEnrolled
    | CourseNotFound
    | NoQuizForCourse
    | QuizNotPassed
    | AlreadyRequested(status: Status)
    | DuplicateKey

  function ApplyMessage(e: ApplyError): string {
    match e
    case InvalidCourseId => "Invalid course ID format"
    case UserNotFound => "User not found"
    case NotEnrolled => "You are not enrolled in this course"
    case CourseNotFound => "Course not found"
    case NoQuizForCourse => "No quiz found for this course"
    case QuizNotPassed => "You need to pass the quiz to apply for certificate"
    case AlreadyRequested(s) => "Certificate request already " + StatusName(s)
    case DuplicateKey => "duplicate key"
  }

  /** The request document an application saves, after the pre-save hook. */
  function RequestFor(userId: UserId, courseId: CourseId, result: QuizResult, newId: RequestId,
                      now: int, certificateId: string): CertificateRequest
  {
    AssignCertificateId(NewRequest(newId, userId, courseId, Some(result.id), now), true, certificateId)
  }

  /** Some stored request already holds the new document's `_id` or `certificateId`. */
  predicate Collides(reqs: seq<CertificateRequest>, newId: RequestId, certificateId: string) {
    exists i :: 0 <= i < |reqs| && (reqs[i].id == newId || reqs[i].certificateId == Some(certificateId))
  }

  /** `applyForCertificate`: seven checks in order, the first failure decides
      the reply, and every failure leaves the store as it was. */
  function ApplyForCertificate(w: World, userId: UserId, courseId: CourseId, isObjectId: string -> bool,
                               newId: RequestId, now: int, certificateId: string)
    : (r: Result<(World, CertificateRequest), ApplyError>)
    ensures (r == Err(InvalidCourseId)) <==> !IsValidObjectId(courseId, isObjectId)
    ensures (r == Err(UserNotFound)) <==> IsValidObjectId(courseId, isObjectId) && FindUser(w, userId).None?
    ensures (r == Err(NotEnrolled)) <==>
              IsValidObjectId(courseId, isObjectId) && FindUser(w, userId).Some? && !IsEnrolled(w, userId, courseId)
    ensures (r == Err(CourseNotFound)) <==>
              IsValidObjectId(courseId, isObjectId) && IsEnrolled(w, userId, courseId) && FindCourse(w, courseId).None?
    ensures (r == Err(NoQuizForCourse)) <==>
              IsValidObjectId(courseId, isObjectId) && IsEnrolled(w, userId, courseId) && FindCourse(w, courseId).Some?
              && FindQuizOfCourse(w, courseId).None?
    ensures (r == Err(QuizNotPassed)) <==>
              IsValidObjectId(courseId, isObjectId) && IsEnrolled(w, userId, courseId) && FindCourse(w, courseId).Some?
              && FindQuizOfCourse(w, courseId).Some?
              && LatestPassed(w.results, userId, FindQuizOfCourse(w, courseId).value.id).None?
    ensures (r.Err? && r.error.AlreadyRequested?) <==>
              IsValidObjectId(courseId, isObjectId) && IsEnrolled(w, userId, courseId) && FindCourse(w, courseId).Some?
              && FindQuizOfCourse(w, courseId).Some?
              && LatestPassed(w.results, userId, FindQuizOfCourse(w, courseId).value.id).Some?
              && FindRequestOf(w, userId, courseId).Some?
    ensures r.Err? && r.error.AlreadyRequested? ==> r.error.status == FindRequestOf(w, userId, courseId).value.status
    ensures r == Err(DuplicateKey) ==> Collides(w.requests, newId, certificateId)
    ensures r.Ok? ==>
      var (w', req) := r.value;
      && IsValidObjectId(courseId, isObjectId)
      && IsEnrolled(w, userId, courseId) && FindCourse(w, courseId).Some?
      && FindQuizOfCourse(w, courseId).Some?
      && LatestPassed(w.results, userId, FindQuizOfCourse(w, courseId).value.id).Some?
      && FindRequestOf(w, userId, courseId).None?
      && !Collides(w.requests, newId, certificateId)
      && req.status == Pending && req.userId == userId && req.courseId == courseId && req.id == newId
      && req.quizResultId == Some(LatestPassed(w.results, userId, FindQuizOfCourse(w, courseId).value.id).value.id)
      && req.certificateId == Some(certificateId)
      && req.appliedAt == now
      && req.approvedAt.None? && req.certificateUrl.None?
      && w' == w.(requests := w.requests + [req])
  {
    if !IsValidObjectId(courseId, isObjectId) then Err(InvalidCourseId)
    else if FindUser(w, userId).None? then Err(UserNotFound)
    else if !IsEnrolled(w, userId, courseId) then Err(NotEnrolled)
    else if FindCourse(w, courseId).None? then Err(CourseNotFound)
    else match FindQuizOfCourse(w, courseId)
      case None => Err(NoQuizForCourse)
      case Some(quiz) =>
        match LatestPassed(w.results, userId, quiz.id)
        case None => Err(QuizNotPassed)
        case Some(result) =>
          match FindRequestOf(w, userId, courseId)
          case Some(existing) => Err(AlreadyRequested(existing.status))
          case None =>
            if Collides(w.requests, newId, certificateId) then Err(DuplicateKey)
            else
              var req := RequestFor(userId, courseId, result, newId, now, certificateId);
              Ok((w.(requests := w.requests + [req]), req))
  }

  /** A successful application keeps the request store valid, writes no
      rejection, and is afterwards what the status lookup finds. */
  lemma ApplyPreservesStore(w: World, userId: UserId, courseId: CourseId, isObjectId: string -> bool,
                            newId: RequestId, now: int, certificateId: string)
    requires RequestStoreValid(w.requests)
    requires ApplyForCertificate(w, userId, courseId, isObjectId, newId, now, certificateId).Ok?
    ensures var (w', req) := ApplyForCertificate(w, userId, courseId, isObjectId, newId, now, certificateId).value;
            && RequestStoreValid(w'.requests)
            && (NoneRejected(w.requests) ==> NoneRejected(w'.requests))
            && FindRequestOf(w', userId, courseId) == Some(req)
  {
    var (w', req) := ApplyForCertificate(w, userId, courseId, isObjectId, newId, now, certificateId).value;
    var n := |w.requests|;
    assert w'.requests[n] == req;
    forall i | 0 <= i < n
      ensures !(w'.requests[i].userId == userId && w'.requests[i].courseId == courseId)
      ensures w'.requests[i].id != newId && w'.requests[i].certificateId != Some(certificateId)
    {
      assert w'.requests[i] == w.requests[i];
    }
    var p := (q: CertificateRequest) => q.userId == userId && q.courseId == courseId;
    assert Seqs.FindIndex(w'.requests, p) == Some(n);
  }

  /** Applying again after a successful application is refused, naming the
      pending status, whatever ids the second attempt would use. */
  lemma SecondApplicationRefused(w: World, userId: UserId, courseId: CourseId, isObjectId: string -> bool,
                                 newId: RequestId, now: int, certificateId: string,
                                 newId2: RequestId, now2: int, certificateId2: string)
    requires RequestStoreValid(w.requests)
    requires ApplyForCertificate(w, userId, courseId, isObjectId, newId, now, certificateId).Ok?
    ensures var w' := ApplyForCertificate(w, userId, courseId, isObjectId, newId, now, certificateId).value.0;
            ApplyForCertificate(w', userId, courseId, isObjectId, newId2, now2, certificateId2) == Err(AlreadyRequested(Pending))
  {
    ApplyPreservesStore(w, userId, courseId, isObjectId, newId, now, certificateId);
  }

  // ---------------------------------------------------------------------------
  // approveCertificate

  datatype ApproveError = InvalidRequestId | RequestNotFound | NotCourseEducator | RecipientNotFound

  function ApproveMessage(e: ApproveError): string {
    match e
    case InvalidRequestId => "Invalid request ID format"
    case RequestNotFound => "Certificate request not found"
    case NotCourseEducator => "Unauthorized to approve this certificate"
    case RecipientNotFound => "User not found for certificate notification"
  }

  /** The success reply: its wording depends on whether the notification
      went out, its success does not. */
  datatype Approval = Approval(emailSent: bool, message: string, certificate: CertificateRequest)

  function ApprovalMessage(emailSent: bool): string {
    if emailSent then "Certificate approved and notification email sent successfully!"
    else "Certificate approved but email notification failed"
  }

  /** `CertificateRequest.findById`. */
  function RequestIndex(reqs: seq<CertificateRequest>, id: RequestId): (r: Option<nat>)
    ensures r.Some? ==> r.value < |reqs| && reqs[r.value].id == id
    ensures r.None? <==> forall i :: 0 <= i < |reqs| ==> reqs[i].id != id
  {
    Seqs.FindIndex(reqs, (q: CertificateRequest) => q.id == id)
  }

  /** The three fields approval writes; nothing else of the request changes. */
  function MarkApproved(req: CertificateRequest, now: int): (r: CertificateRequest)
    ensures r.status == Approved && r.approvedAt == Some(now)
    ensures r.certificateUrl == Some(CertificateUrl(req.certificateId))
    ensures r.(status := req.status, approvedAt := req.approvedAt, certificateUrl := req.certificateUrl) == req
  {
    req.(status := Approved, approvedAt := Some(now), certificateUrl := Some(CertificateUrl(req.certificateId)))
  }

  /** `approveCertificate`. The prior status is not consulted: a pending, an
      approved or a rejected request is approved alike. `emailSent` is the
      outcome of the notification, which happens after the save. */
  function ApproveCertificate(w: World, educatorId: UserId, requestId: RequestId, isObjectId: string -> bool,
                              now: int, emailSent: bool)
    : (r: Result<(World, Approval), ApproveError>)
    ensures (r == Err(InvalidRequestId)) <==> !IsValidObjectId(requestId, isObjectId)
    ensures (r == Err(RequestNotFound)) <==>
              IsValidObjectId(requestId, isObjectId) && RequestIndex(w.requests, requestId).None?
    ensures (r == Err(NotCourseEducator)) <==>
              IsValidObjectId(requestId, isObjectId) && RequestIndex(w.requests, requestId).Some?
              && FindOwnedCourse(w, w.requests[RequestIndex(w.requests, requestId).value].courseId, educatorId).None?
    ensures (r == Err(RecipientNotFound)) <==>
              IsValidObjectId(requestId, isObjectId) && RequestIndex(w.requests, requestId).Some?
              && FindOwnedCourse(w, w.requests[RequestIndex(w.requests, requestId).value].courseId, educatorId).Some?
              && FindUser(w, w.requests[RequestIndex(w.requests, requestId).value].userId).None?
    ensures r.Ok? ==>
      var i := RequestIndex(w.requests, requestId).value;
      var (w', a) := r.value;
      && IsValidObjectId(requestId, isObjectId) && RequestIndex(w.requests, requestId).Some?
      && FindOwnedCourse(w, w.requests[i].courseId, educatorId).Some?
      && FindUser(w, w.requests[i].userId).Some?
      && a.certificate == MarkApproved(w.requests[i], now)
      && a.certificate.status == Approved
      && a.certificate.certificateUrl == Some(CertificateUrl(w.requests[i].certificateId))
      && a.emailSent == emailSent && a.message == ApprovalMessage(emailSent)
      && w' == w.(requests := w.requests[i := a.certificate])
  {
    if !IsValidObjectId(requestId, isObjectId) then Err(InvalidRequestId)
    else match RequestIndex(w.requests, requestId)
      case None => Err(RequestNotFound)
      case Some(i) =>
        var req := w.requests[i];
        if FindOwnedCourse(w, req.courseId, educatorId).None? then Err(NotCourseEducator)
        else if FindUser(w, req.userId).None? then Err(RecipientNotFound)
        else
          // the pre-save hook leaves an existing document's certificateId alone
          var saved := AssignCertificateId(MarkApproved(req, now), false, "");
          Ok((w.(requests := w.requests[i := saved]), Approval(emailSent, ApprovalMessage(emailSent), saved)))
  }

  /** Approval succeeds or fails, and changes the store, the same way whether
      or not the notification email went out. */
  lemma ApprovalIgnoresEmail(w: World, educatorId: UserId, requestId: RequestId, isObjectId: string -> bool, now: int)
    ensures ApproveCertificate(w, educatorId, requestId, isObjectId, now, true).Ok?
            <==> ApproveCertificate(w, educatorId, requestId, isObjectId, now, false).Ok?
    ensures ApproveCertificate(w, educatorId, requestId, isObjectId, now, true).Ok? ==>
            ApproveCertificate(w, educatorId, requestId, isObjectId, now, true).value.0
            == ApproveCertificate(w, educatorId, requestId, isObjectId, now, false).value.0
  {
  }

  /** Approval keeps the request store valid and does not introduce a rejection. */
  lemma ApprovePreservesStore(w: World, educatorId: UserId, requestId: RequestId, isObjectId: string -> bool,
                              now: int, emailSent: bool)
    requires RequestStoreValid(w.requests)
    requires ApproveCertificate(w, educatorId, requestId, isObjectId, now, emailSent).Ok?
    ensures var w' := ApproveCertificate(w, educatorId, requestId, isObjectId, now, emailSent).value.0;
            && RequestStoreValid(w'.requests)
            && (NoneRejected(w.requests) ==> NoneRejected(w'.requests))
            && |w'.requests| == |w.requests|
            && forall k :: 0 <= k < |w.requests| ==>
                 w'.requests[k].userId == w.requests[k].userId && w'.requests[k].courseId == w.requests[k].courseId
                 && w'.requests[k].id == w.requests[k].id && w'.requests[k].certificateId == w.requests[k].certificateId
  {
  }

  /** Approval leaves the request where it was, so looking it up by id finds it again. */
  lemma ApprovedStaysAtIndex(w: World, educatorId: UserId, requestId: RequestId, isObjectId: string -> bool,
                             now: int, emailSent: bool)
    requires ApproveCertificate(w, educatorId, requestId, isObjectId, now, emailSent).Ok?
    ensures var w' := ApproveCertificate(w, educatorId, requestId, isObjectId, now, emailSent).value.0;
            RequestIndex(w'.requests, requestId) == RequestIndex(w.requests, requestId)
  {
    var i := RequestIndex(w.requests, requestId).value;
    var w' := ApproveCertificate(w, educatorId, requestId, isObjectId, now, emailSent).value.0;
    forall j | 0 <= j < i ensures w'.requests[j].id != requestId {
      assert w'.requests[j] == w.requests[j];
    }
    Seqs.FindIndexIsFirst(w'.requests, (q: CertificateRequest) => q.id == requestId, i);
  }

  /** The approval has no one-way guard: a rejected request becomes approved,
      and an approved one can be approved again, which moves its `approvedAt`. */
  lemma ApprovalFromAnyStatus(w: World, educatorId: UserId, requestId: RequestId, isObjectId: string -> bool,
                              now: int, emailSent: bool, later: int)
    requires ApproveCertificate(w, educatorId, requestId, isObjectId, now, emailSent).Ok?
    ensures var i := RequestIndex(w.requests, requestId).value;
            var w' := ApproveCertificate(w, educatorId, requestId, isObjectId, now, emailSent).value.0;
            && (w.requests[i].status == Rejected ==> w'.requests[i].status == Approved)
            && ApproveCertificate(w', educatorId, requestId, isObjectId, later, emailSent).Ok?
            && ApproveCertificate(w', educatorId, requestId, isObjectId, later, emailSent).value.0.requests[i].approvedAt == Some(later)
  {
    var i := RequestIndex(w.requests, requestId).value;
    var w' := ApproveCertificate(w, educatorId, requestId, isObjectId, now, emailSent).value.0;
    ApprovedStaysAtIndex(w, educatorId, requestId, isObjectId, now, emailSent);
    assert w'.users == w.users && w'.courses == w.courses;
    assert w'.requests[i].courseId == w.requests[i].courseId && w'.requests[i].userId == w.requests[i].userId;
  }

  /** With one request per student and course, the student's status lookup
      sees the approved request. */
  lemma ApprovalVisibleInStatus(w: World, educatorId: UserId, requestId: RequestId, isObjectId: string -> bool,
                                now: int, emailSent: bool)
    requires OneRequestPerEnrolment(w.requests)
    requires ApproveCertificate(w, educatorId, requestId, isObjectId, now, emailSent).Ok?
    ensures var i := RequestIndex(w.requests, requestId).value;
            var w' := ApproveCertificate(w, educatorId, requestId, isObjectId, now, emailSent).value.0;
            FindRequestOf(w', w.requests[i].userId, w.requests[i].courseId) == Some(w'.requests[i])
  {
    var i := RequestIndex(w.requests, requestId).value;
    var w' := ApproveCertificate(w, educatorId, requestId, isObjectId, now, emailSent).value.0;
    var u := w.requests[i].userId;
    var c := w.requests[i].courseId;
    var p := (q: CertificateRequest) => q.userId == u && q.courseId == c;
    forall j | 0 <= j < i ensures !p(w'.requests[j]) {
      assert w'.requests[j] == w.requests[j];
    }
    Seqs.FindIndexIsFirst(w'.requests, p, i);
  }

  // ---------------------------------------------------------------------------
  // getCertificateStatus

  /** `getCertificateStatus`: the student's request for the course, if any. */
  function GetCertificateStatus(w: World, userId: UserId, courseId: CourseId): (r: Option<CertificateRequest>)
    ensures r.Some? ==> r.value in w.requests && r.value.userId == userId && r.value.courseId == courseId
    ensures r.None? <==> forall i :: 0 <= i < |w.requests| ==> !(w.requests[i].userId == userId && w.requests[i].courseId == courseId)
  {
    FindRequestOf(w, userId, courseId)
  }

  /** Once the student's request is approved, the status lookup reports it
      approved, with the address derived from its certificate id. */
  lemma StatusAfterApproval(w: World, userId: UserId, courseId: CourseId, educatorId: UserId,
                            isObjectId: string -> bool, now: int, emailSent: bool)
    requires RequestStoreValid(w.requests)
    requires GetCertificateStatus(w, userId, courseId).Some?
    requires ApproveCertificate(w, educatorId, GetCertificateStatus(w, userId, courseId).value.id, isObjectId, now, emailSent).Ok?
    ensures var req := GetCertificateStatus(w, userId, courseId).value;
            var w' := ApproveCertificate(w, educatorId, req.id, isObjectId, now, emailSent).value.0;
            && GetCertificateStatus(w', userId, courseId).Some?
            && GetCertificateStatus(w', userId, courseId).value.status == Approved
            && GetCertificateStatus(w', userId, courseId).value.approvedAt == Some(now)
            && GetCertificateStatus(w', userId, courseId).value.certificateUrl == Some(CertificateUrl(req.certificateId))
  {
    var req := GetCertificateStatus(w, userId, courseId).value;
    var m :| 0 <= m < |w.requests| && w.requests[m] == req;
    forall j | 0 <= j < m ensures w.requests[j].id != req.id {
      assert DistinctRequestIds(w.requests);
    }
    Seqs.FindIndexIsFirst(w.requests, (q: CertificateRequest) => q.id == req.id, m);
    assert RequestIndex(w.requests, req.id) == Some(m);
    var w' := ApproveCertificate(w, educatorId, req.id, isObjectId, now, emailSent).value.0;
    assert w'.requests[m] == MarkApproved(req, now);
    ApprovalVisibleInStatus(w, educatorId, req.id, isObjectId, now, emailSent);
    assert GetCertificateStatus(w', userId, courseId) == Some(w'.requests[m]);
  }

  // ---------------------------------------------------------------------------
  // getCertificateRequests

  /** The requester as listed: the user's public fields, or a placeholder
      when the user record is gone. */
  datatype Requester =
    | Known(id: UserId, name: string, email: string, profilePicture: string)
    | UnknownUser

  /** The populated `quizResultId`: four fields of the referenced result. */
  datatype ResultSummary = ResultSummary(score: int, totalPoints: int, percentage: Percent, passed: bool)

  datatype RequestView = RequestView(request: CertificateRequest, requester: Requester, result: Option<ResultSummary>)

  function FindResult(w: World, id: ResultId): (r: Option<QuizResult>)
    ensures r.Some? ==> r.value in w.results && r.value.id == id
    ensures r.None? <==> forall i :: 0 <= i < |w.results| ==> w.results[i].id != id
  {
    match Seqs.FindIndex(w.results, (x: QuizResult) => x.id == id)
    case Some(i) => Some(w.results[i])
    case None => None
  }

  /** One listed request: the requester's name, email and picture come from
      the stored user, and the summary's four values from the referenced
      stored result. */
  function ViewOf(w: World, req: CertificateRequest): (v: RequestView)
    ensures v.request == req
    ensures v.requester.Known? <==> FindUser(w, req.userId).Some?
    ensures v.requester.Known? ==> v.requester.id == req.userId
    ensures v.result.Some? <==> req.quizResultId.Some? && FindResult(w, req.quizResultId.value).Some?
    ensures v.requester.Known? ==>
              var u := FindUser(w, req.userId).value;
              v.requester == Known(u.id, u.name, u.email, u.imageUrl)
    ensures v.result.Some? ==>
              var x := FindResult(w, req.quizResultId.value).value;
              v.result.value == ResultSummary(x.score, x.totalPoints, x.percentage, x.passed)
  {
    var requester := match FindUser(w, req.userId)
      case Some(u) => Known(u.id, u.name, u.email, u.imageUrl)
      case None => UnknownUser;
    var result := match req.quizResultId
      case None => None
      case Some(rid) =>
        match FindResult(w, rid)
        case None => None
        case Some(x) => Some(ResultSummary(x.score, x.totalPoints, x.percentage, x.passed));
    RequestView(req, requester, result)
  }

  /** The test that picks the requests of one course. */
  function OfCourse(courseId: CourseId): CertificateRequest -> bool {
    (q: CertificateRequest) => q.courseId == courseId
  }

  /** The course's requests, newest first (creation times increase in
      insertion order): entry k is the request at the k-th largest of the
      course's positions in the store. Since `Seqs.Positions` lists every such
      position once, ascending, each request of the course is listed exactly
      once and the positions strictly decrease along the list. */
  function CourseRequestsNewestFirst(w: World, courseId: CourseId): (r: seq<CertificateRequest>)
    ensures var ix := Seqs.Positions(w.requests, OfCourse(courseId));
            && |r| == |ix|
            && (forall k :: 0 <= k < |r| ==> r[k] == w.requests[ix[|ix| - 1 - k]])
  {
    Seqs.ReversedFilterAtPositions(w.requests, OfCourse(courseId));
    Seqs.Reverse(Seqs.Filter(w.requests, OfCourse(courseId)))
  }

  /** The newest-first list holds requests of the course only, and every
      request of the course is in it. */
  lemma NewestFirstIsTheCourse(w: World, courseId: CourseId)
    ensures var r := CourseRequestsNewestFirst(w, courseId);
            forall k :: 0 <= k < |r| ==> r[k] in w.requests && r[k].courseId == courseId
    ensures var r := CourseRequestsNewestFirst(w, courseId);
            forall i :: 0 <= i < |w.requests| && w.requests[i].courseId == courseId ==>
              exists k :: 0 <= k < |r| && r[k] == w.requests[i]
  {
    NewestFirstOnlyTheCourse(w, courseId);
    NewestFirstListsAll(w, courseId);
  }

  /** Every listed entry is a stored request of the course. */
  lemma NewestFirstOnlyTheCourse(w: World, courseId: CourseId)
    ensures var r := CourseRequestsNewestFirst(w, courseId);
            forall k :: 0 <= k < |r| ==> r[k] in w.requests && r[k].courseId == courseId
  {
    var r := CourseRequestsNewestFirst(w, courseId);
    var ix := Seqs.Positions(w.requests, OfCourse(courseId));
    forall k | 0 <= k < |r|
      ensures r[k] in w.requests && r[k].courseId == courseId
    {
      assert OfCourse(courseId)(w.requests[ix[|ix| - 1 - k]]);
    }
  }

  /** Every stored request of the course is listed. */
  lemma NewestFirstListsAll(w: World, courseId: CourseId)
    ensures var r := CourseRequestsNewestFirst(w, courseId);
            forall i :: 0 <= i < |w.requests| && w.requests[i].courseId == courseId ==>
              exists k :: 0 <= k < |r| && r[k] == w.requests[i]
  {
    var r := CourseRequestsNewestFirst(w, courseId);
    var ix := Seqs.Positions(w.requests, OfCourse(courseId));
    forall i | 0 <= i < |w.requests| && w.requests[i].courseId == courseId
      ensures exists k :: 0 <= k < |r| && r[k] == w.requests[i]
    {
      assert OfCourse(courseId)(w.requests[i]);
      var m := Seqs.PositionOf(w.requests, OfCourse(courseId), i);
      assert r[|ix| - 1 - m] == w.requests[i];
    }
  }

  datatype ListError = InvalidCourse | CourseNotOwned

  /** `getCertificateRequests`: for the owning educator, one enriched entry per
      request of the course, newest first. */
  function GetCertificateRequests(w: World, educatorId: UserId, courseId: CourseId, isObjectId: string -> bool)
    : (r: Result<seq<RequestView>, ListError>)
    ensures (r == Err(InvalidCourse)) <==> !IsValidObjectId(courseId, isObjectId)
    ensures (r == Err(CourseNotOwned)) <==> IsValidObjectId(courseId, isObjectId) && FindOwnedCourse(w, courseId, educatorId).None?
    ensures r.Ok? ==>
              var mine := CourseRequestsNewestFirst(w, courseId);
              |r.value| == |mine| && forall k :: 0 <= k < |mine| ==> r.value[k] == ViewOf(w, mine[k])
  {
    if !IsValidObjectId(courseId, isObjectId) then Err(InvalidCourse)
    else if FindOwnedCourse(w, courseId, educatorId).None? then Err(CourseNotOwned)
    else
      var mine := CourseRequestsNewestFirst(w, courseId);
      Ok(seq(|mine|, k requires 0 <= k < |mine| => ViewOf(w, mine[k])))
  }

  // ---------------------------------------------------------------------------
  // getQuizCompletionStats

  /** The students with at least one passed result for the quiz. */
  function PassedUsers(results: seq<QuizResult>, quizId: QuizId): set<UserId> {
    set k | 0 <= k < |results| && results[k].quizId == quizId && results[k].passed :: results[k].userId
  }

  /** The distinct users with a passed result for the quiz, in order of
      first appearance. */
  function DistinctPassedUsers(results: seq<QuizResult>, quizId: QuizId): (r: seq<UserId>)
    ensures Seqs.NoDuplicates(r)
    ensures (set u | u in r) == PassedUsers(results, quizId)
  {
    if |results| == 0 then []
    else
      var init := results[..|results| - 1];
      var x := results[|results| - 1];
      var prev := DistinctPassedUsers(init, quizId);
      assert PassedUsers(results, quizId) ==
             PassedUsers(init, quizId) + (if x.quizId == quizId && x.passed then {x.userId} else {}) by {
        forall u | u in PassedUsers(results, quizId)
          ensures u in PassedUsers(init, quizId) + (if x.quizId == quizId && x.passed then {x.userId} else {})
        {
          var k :| 0 <= k < |results| && results[k].quizId == quizId && results[k].passed && results[k].userId == u;
          if k < |init| {
            assert init[k] == results[k];
          }
        }
        forall u | u in PassedUsers(init, quizId) ensures u in PassedUsers(results, quizId) {
          var k :| 0 <= k < |init| && init[k].quizId == quizId && init[k].passed && init[k].userId == u;
          assert results[k] == init[k];
        }
      }
      if x.quizId == quizId && x.passed && x.userId !in prev then prev + [x.userId] else prev
  }

  datatype CourseStats = CourseStats(courseId: CourseId, studentsPassedQuiz: nat, totalEnrolled: nat)

  function StatsFor(w: World, course: Course): (s: CourseStats)
    ensures s.courseId == course.id && s.totalEnrolled == |course.enrolledStudents|
    ensures FindQuizOfCourse(w, course.id).None? ==> s.studentsPassedQuiz == 0
    ensures FindQuizOfCourse(w, course.id).Some? ==>
              s.studentsPassedQuiz == |PassedUsers(w.results, FindQuizOfCourse(w, course.id).value.id)|
  {
    match FindQuizOfCourse(w, course.id)
    case None => CourseStats(course.id, 0, |course.enrolledStudents|)
    case Some(quiz) =>
      var passed := DistinctPassedUsers(w.results, quiz.id);
      Seqs.NoDuplicatesCardinality(passed);
      CourseStats(course.id, |passed|, |course.enrolledStudents|)
  }

  /** `getQuizCompletionStats`: one entry per course the educator owns, in
      store order. */
  function QuizCompletionStats(w: World, educatorId: UserId): (r: seq<CourseStats>)
    ensures var owned := Seqs.Filter(w.courses, (c: Course) => c.educator == educatorId);
            |r| == |owned| && forall k :: 0 <= k < |r| ==> r[k] == StatsFor(w, owned[k])
  {
    var owned := Seqs.Filter(w.courses, (c: Course) => c.educator == educatorId);
    seq(|owned|, k requires 0 <= k < |owned| => StatsFor(w, owned[k]))
  }

  /** A student who passed several times is counted once: another passed
      attempt by a student already counted leaves the statistics unchanged. */
  lemma RepeatedPassCountsOnce(w: World, course: Course, x: QuizResult)
    requires FindQuizOfCourse(w, course.id).Some?
    requires PassedAttempt(x, x.userId, FindQuizOfCourse(w, course.id).value.id)
    requires x.userId in PassedUsers(w.results, FindQuizOfCourse(w, course.id).value.id)
    ensures StatsFor(w.(results := w.results + [x]), course) == StatsFor(w, course)
  {
    var q := FindQuizOfCourse(w, course.id).value;
    var w' := w.(results := w.results + [x]);
    assert FindQuizOfCourse(w', course.id) == Some(q);
    assert PassedUsers(w'.results, q.id) == PassedUsers(w.results, q.id) by {
      forall u | u in PassedUsers(w'.results, q.id) ensures u in PassedUsers(w.results, q.id) {
        var k :| 0 <= k < |w'.results| && w'.results[k].quizId == q.id && w'.results[k].passed && w'.results[k].userId == u;
        if k < |w.results| {
          assert w.results[k] == w'.results[k];
        }
      }
      forall u | u in PassedUsers(w.results, q.id) ensures u in PassedUsers(w'.results, q.id) {
        var k :| 0 <= k < |w.results| && w.results[k].quizId == q.id && w.results[k].passed && w.results[k].userId == u;
        assert w'.results[k] == w.results[k];
      }
    }
  }
}

=== FILE: certificate_model.dfy ===
/** A student's request for a completion certificate, decided by the course's educator. */
module CertificateModel {
  import opened Wrappers
  import opened Ids

  /** The schema's enum: a stored status is always one of these three. */
  datatype Status = Pending | Approved | Rejected

  function StatusName(s: Status): string {
    match s
    case Pending => "pending"
    case Approved => "approved"
    case Rejected => "rejected"
  }

  /** The stored enum value and the status are in one-to-one correspondence. */
  lemma StatusNameInjective(a: Status, b: Status)
    ensures StatusName(a) == StatusName(b) <==> a == b
  {
  }

  /** `approvedAt` and `certificateUrl` have no default and stay absent until
      approval; `certificateId` is filled in by the pre-save hook. */
  datatype CertificateRequest = CertificateRequest(
    id: RequestId,
    userId: UserId,
    courseId: CourseId,
    quizResultId: Option<ResultId>,
    status: Status,
    appliedAt: int,
    approvedAt: Option<int>,
    certificateUrl: Option<string>,
    certificateId: Option<string>)

  /** A fresh request document built from the fields the controller supplies;
      `now` stands for the `Date.now` default of `appliedAt`. */
  function NewRequest(id: RequestId, userId: UserId, courseId: CourseId,
                      quizResultId: Option<ResultId>, now: int): (r: CertificateRequest)
    ensures r.status == Pending
    ensures r.approvedAt.None? && r.certificateUrl.None? && r.certificateId.None?
    ensures r.id == id && r.userId == userId && r.courseId == courseId
    ensures r.quizResultId == quizResultId && r.appliedAt == now
  {
    CertificateRequest(id, userId, courseId, quizResultId, Pending, now, None, None, None)
  }

  /** The pre-save hook: a new document without an id gets `freshId`, standing
      for the time-and-random `CERT-…` string; any other save leaves it alone. */
  function AssignCertificateId(r: CertificateRequest, isNew: bool, freshId: string): (r': CertificateRequest)
    ensures r'.(certificateId := r.certificateId) == r
    ensures isNew ==> r'.certificateId.Some?
    ensures r.certificateId.Some? ==> r'.certificateId == r.certificateId
    ensures !isNew ==> r' == r
  {
    if isNew && r.certificateId.None? then r.(certificateId := Some(freshId)) else r
  }

  /** Once assigned, a certificate id survives any sequence of later saves. */
  lemma {:induction false} CertificateIdStable(r: CertificateRequest, saves: seq<(bool, string)>)
    requires r.certificateId.Some?
    ensures SaveAll(r, saves).certificateId == r.certificateId
  {
    if |saves| > 0 {
      var r1 := AssignCertificateId(r, saves[0].0, saves[0].1);
      CertificateIdStable(r1, saves[1..]);
    }
  }

  /** Runs the pre-save hook once per `(isNew, freshId)` save. */
  function SaveAll(r: CertificateRequest, saves: seq<(bool, string)>): CertificateRequest
    decreases |saves|
  {
    if |saves| == 0 then r else SaveAll(AssignCertificateId(r, saves[0].0, saves[0].1), saves[1..])
  }

  /** The address an approval stores: the certificate id between
      `/certificates/` and `.pdf`, where an absent id prints as `undefined`. */
  function CertificateUrl(certificateId: Option<string>): (u: string)
    ensures certificateId.Some? ==> u == "/certificates/" + certificateId.value + ".pdf"
  {
    "/certificates/" + certificateId.GetOr("undefined") + ".pdf"
  }
}

=== FILE: certificate_requests_page.dfy ===
/** The educator's certificate-requests page: when it fetches, the approve
    button's state and caption, and the local list update after an approval. */
module CertificateRequestsPage {
  import opened Wrappers
  import opened Ids
  import opened CertificateModel
  import opened Store
  import opened CertificateController

  /** A listed request as the page holds it; `emailSent` is only set by the
      page after its own approval. */
  datatype Row = Row(id: RequestId, status: Status, certificateUrl: Option<string>,
                     approvedAt: Option<int>, emailSent: bool)

  /** The row for a request as fetched. */
  function RowOf(req: CertificateRequest): (r: Row)
    ensures r.id == req.id && r.status == req.status && r.certificateUrl == req.certificateUrl
    ensures r.approvedAt == req.approvedAt && !r.emailSent
  {
    Row(req.id, req.status, req.certificateUrl, req.approvedAt, false)
  }

  /** The page asks the server only for a route parameter of 24 characters. */
  predicate FetchAllowed(courseId: Option<string>) {
    courseId.Some? && |courseId.value| == 24
  }

  /** Every course id the server would list requests for passes the page's
      own check. */
  lemma FetchAllowedForValidIds(courseId: string, isObjectId: string -> bool)
    requires IsValidObjectId(courseId, isObjectId)
    ensures FetchAllowed(Some(courseId))
  {
  }

  /** `approving`: the requests whose approval is in flight. */
  type InFlight = map<RequestId, bool>

  function Approving(inFlight: InFlight, id: RequestId): bool {
    id in inFlight && inFlight[id]
  }

  /** `isApproveDisabled`. */
  predicate ApproveDisabled(row: Row, inFlight: InFlight) {
    row.status == Approved || Approving(inFlight, row.id)
  }

  /** `getApproveButtonText`. */
  function ApproveButtonText(row: Row): (t: string)
    ensures row.status == Approved && row.emailSent ==> t == "✅ Approved & Email Sent"
    ensures row.status == Approved && !row.emailSent ==> t == "✅ Approved"
    ensures row.status != Approved ==> t == "Approve Certificate"
  {
    if row.status == Approved then (if row.emailSent then "✅ Approved & Email Sent" else "✅ Approved")
    else "Approve Certificate"
  }

  /** What the action column shows for a row. */
  datatype RowAction = ApproveButton(disabled: bool, caption: string) | ApprovedNote(caption: string) | NoControl

  /** The action column: an approve button only for a pending request, a note
      for an approved one, nothing for a rejected one. */
  function ActionFor(row: Row, inFlight: InFlight): (a: RowAction)
    ensures a.ApproveButton? <==> row.status == Pending
    ensures a.ApprovedNote? <==> row.status == Approved
    ensures a.ApproveButton? ==> (a.disabled <==> Approving(inFlight, row.id))
    ensures a.ApproveButton? && Approving(inFlight, row.id) ==> a.caption == "Approving..."
    ensures a.ApproveButton? && !Approving(inFlight, row.id) ==> a.caption == "Approve Certificate"
  {
    match row.status
    case Pending =>
      ApproveButton(ApproveDisabled(row, inFlight),
                    if Approving(inFlight, row.id) then "Approving..." else ApproveButtonText(row))
    case Approved => ApprovedNote(ApproveButtonText(row))
    case Rejected => NoControl
  }

  /** The list update after a successful approval reply: rows with that id
      become approved with the returned address; all others stay. */
  function ApplyApproval(rows: seq<Row>, requestId: RequestId, reply: Approval, now: int): (r: seq<Row>)
    ensures |r| == |rows|
    ensures forall k :: 0 <= k < |rows| && rows[k].id == requestId ==>
              r[k] == rows[k].(status := Approved, certificateUrl := reply.certificate.certificateUrl,
                               approvedAt := Some(now), emailSent := reply.emailSent)
    ensures forall k :: 0 <= k < |rows| && rows[k].id != requestId ==> r[k] == rows[k]
  {
    seq(|rows|, k requires 0 <= k < |rows| =>
      if rows[k].id == requestId
      then rows[k].(status := Approved, certificateUrl := reply.certificate.certificateUrl,
                    approvedAt := Some(now), emailSent := reply.emailSent)
      else rows[k])
  }

  /** After the server approves a request and the page applies the reply, the
      row shows the stored status and address, no longer offers approval, and
      its caption tells whether the email went out. */
  lemma ApprovedRowMatchesStore(w: World, educatorId: UserId, requestId: RequestId, isObjectId: string -> bool,
                                approvedAt: int, emailSent: bool, rows: seq<Row>, now: int, k: nat, inFlight: InFlight)
    requires ApproveCertificate(w, educatorId, requestId, isObjectId, approvedAt, emailSent).Ok?
    requires k < |rows| && rows[k].id == requestId
    ensures var (w', reply) := ApproveCertificate(w, educatorId, requestId, isObjectId, approvedAt, emailSent).value;
            var i := RequestIndex(w.requests, requestId).value;
            var row := ApplyApproval(rows, requestId, reply, now)[k];
            && row.status == w'.requests[i].status == Approved
            && row.certificateUrl == w'.requests[i].certificateUrl
            && ActionFor(row, inFlight).ApprovedNote?
            && ActionFor(row, inFlight).caption == (if emailSent then "✅ Approved & Email Sent" else "✅ Approved")
  {
  }
}

=== FILE: course_completion.dfy ===
/** The server's course-completion check: lecture arithmetic over a course's
    chapters and the student's progress record. */
module CourseCompletion {
  import opened Wrappers
  import opened Ids
  import opened Store
  import opened Text
  import Seqs

  /** Lectures of one chapter; a missing list counts as none. */
  function ChapterLectures(c: Chapter): seq<LectureId> {
    c.chapterContent.GetOr([])
  }

  /** Every lecture of the chapters, chapter by chapter. */
  function AllLectures(chapters: seq<Chapter>): seq<LectureId> {
    if |chapters| == 0 then [] else ChapterLectures(chapters[0]) + AllLectures(chapters[1..])
  }

  /** The running total the handler accumulates chapter by chapter (a left fold). */
  function LectureTotal(chapters: seq<Chapter>): nat {
    if |chapters| == 0 then 0
    else LectureTotal(chapters[..|chapters| - 1]) + |ChapterLectures(chapters[|chapters| - 1])|
  }

  /** `totalLectures`: the number of lectures across the course's chapters,
      zero for a course without content. */
  function TotalLectures(course: Course): (r: nat)
    ensures r == |AllLectures(course.courseContent.GetOr([]))|
  {
    LectureTotalCounts(course.courseContent.GetOr([]));
    match course.courseContent
    case None => 0
    case Some(chapters) => LectureTotal(chapters)
  }

  lemma {:induction false} AllLecturesAppend(a: seq<Chapter>, b: seq<Chapter>)
    ensures AllLectures(a + b) == AllLectures(a) + AllLectures(b)
    decreases |a|
  {
    if |a| == 0 {
      assert a + b == b;
    } else {
      AllLecturesAppend(a[1..], b);
      assert (a + b)[1..] == a[1..] + b;
    }
  }

  /** The accumulated total is the number of lectures in all chapters. */
  lemma {:induction false} LectureTotalCounts(chapters: seq<Chapter>)
    ensures LectureTotal(chapters) == |AllLectures(chapters)|
    decreases |chapters|
  {
    if |chapters| > 0 {
      var init := chapters[..|chapters| - 1];
      var last := chapters[|chapters| - 1];
      LectureTotalCounts(init);
      assert chapters == init + [last];
      AllLecturesAppend(init, [last]);
      assert AllLectures([last]) == ChapterLectures(last) + AllLectures([]);
    }
  }

  /** `completedLectures`: zero without a progress record. */
  function CompletedLectures(p: Option<CourseProgress>): (n: nat)
    ensures p.None? ==> n == 0
    ensures p.Some? ==> n == |p.value.lectureCompleted|
  {
    match p
    case None => 0
    case Some(rec) => |rec.lectureCompleted|
  }

  /** The completion rule shared by server and client. */
  predicate IsCourseCompleted(completed: nat, total: nat) {
    completed == total && total > 0
  }

  /** The completed count, a slash, then the total. */
  function ProgressText(completed: nat, total: nat): string {
    NatToString(completed) + "/" + NatToString(total)
  }

  /** Reads a progress text back: digits, one slash, digits. */
  function ParseProgress(s: string): Option<(nat, nat)> {
    match Seqs.FindIndex(s, (ch: char) => ch == '/')
    case None => None
    case Some(i) =>
      if AllDigits(s[..i]) && AllDigits(s[i + 1..]) then Some((DigitsValue(s[..i]), DigitsValue(s[i + 1..])))
      else None
  }

  lemma ProgressTextRoundTrip(completed: nat, total: nat)
    ensures ParseProgress(ProgressText(completed, total)) == Some((completed, total))
  {
    var a := NatToString(completed);
    var b := NatToString(total);
    var s := ProgressText(completed, total);
    assert s[|a|] == '/';
    assert forall k :: 0 <= k < |a| ==> s[k] == a[k];
    var i := Seqs.FindIndex(s, (ch: char) => ch == '/');
    assert i == Some(|a|);
    assert s[..|a|] == a;
    assert s[|a| + 1..] == b;
    NatToStringRoundTrip(completed);
    NatToStringRoundTrip(total);
  }

  /** The completed share of the lectures times 100, or 0 without lectures; it is exactly 100
      when every lecture is done, and below 100 when some is missing. */
  function CompletionPercentage(done: nat, total: nat): (p: real)
    ensures total == 0 ==> p == 0.0
    ensures total > 0 ==> (p == 100.0 <==> done == total)
    ensures total > 0 ==> (p < 100.0 <==> done < total)
  {
    if total > 0 then
      var p := (done as real / total as real) * 100.0;
      assert p * (total as real) == (done as real) * 100.0;
      p
    else 0.0
  }

  datatype Completion = Completion(isCompleted: bool, progress: string, percentage: real)

  datatype CompletionError = CourseNotFound | ReferenceError(message: string)

  /** The completion check as the handler evidently intends it. */
  function CheckCourseCompletion(w: World, userId: UserId, courseId: CourseId): (r: Result<Completion, CompletionError>)
    ensures r.Err? <==> FindCourse(w, courseId).None?
    ensures r.Err? ==> r.error == CourseNotFound
    ensures r.Ok? ==>
      var total := |AllLectures(FindCourse(w, courseId).value.courseContent.GetOr([]))|;
      var done := CompletedLectures(FindProgress(w, userId, courseId));
      && (r.value.isCompleted <==> done == total && total > 0)
      && ParseProgress(r.value.progress) == Some((done, total))
      && (total == 0 ==> r.value.percentage == 0.0)
      && (total > 0 ==> (r.value.percentage == 100.0 <==> done == total))
      && (total > 0 ==> (r.value.percentage < 100.0 <==> done < total))
  {
    match FindCourse(w, courseId)
    case None => Err(CourseNotFound)
    case Some(course) =>
      var total := TotalLectures(course);
      var done := CompletedLectures(FindProgress(w, userId, courseId));
      ProgressTextRoundTrip(done, total);
      Ok(Completion(IsCourseCompleted(done, total), ProgressText(done, total), CompletionPercentage(done, total)))
  }

  /** The handler as written: `CourseProgress` is used but never imported into
      the controller, so the first statement of the `try` throws a
      ReferenceError and every request gets the failure reply. */
  function CheckCourseCompletionAsWritten(w: World, userId: UserId, courseId: CourseId): (r: Result<Completion, CompletionError>)
    ensures r == Err(ReferenceError("CourseProgress is not defined"))
  {
    Err(ReferenceError("CourseProgress is not defined"))
  }

  /** A student who finished the only lecture of a course: the intended check
      reports the course completed, the handler as written reports failure. */
  lemma AsWrittenNeverReportsCompletion()
    ensures var w := World([], [Course("c", "Course", "e", Some([Chapter(Some(["l"]))]), [])], [], [], [],
                           [CourseProgress("u", "c", ["l"])]);
            && CheckCourseCompletion(w, "u", "c") == Ok(Completion(true, "1/1", 100.0))
            && CheckCourseCompletionAsWritten(w, "u", "c").Err?
  {
    var w := World([], [Course("c", "Course", "e", Some([Chapter(Some(["l"]))]), [])], [], [], [],
                   [CourseProgress("u", "c", ["l"])]);
    assert FindCourse(w, "c") == Some(w.courses[0]);
    assert FindProgress(w, "u", "c") == Some(w.progress[0]);
    var chapters := [Chapter(Some(["l"]))];
    assert LectureTotal(chapters) == 1 by {
      assert chapters[..0] == [];
    }
    assert ProgressText(1, 1) == "1/1";
  }
}

=== FILE: enrollments_page.dfy ===
/** The student's enrollments page: per-course progress, the latest quiz
    result, the certificate status, and the two buttons they drive. */
module EnrollmentsPage {
  import opened Wrappers
  import opened Ids
  import opened Text
  import opened QuizResultModel
  import opened CertificateModel
  import opened Store
  import opened Attempts
  import opened CourseCompletion
  import opened CertificateController
  import Seqs

  /** One element of the page's `progressArray`. */
  datatype ProgressEntry = ProgressEntry(totalLectures: nat, lectureCompleted: nat, courseId: CourseId)

  /** The entry built for a course: `total` is the app context's lecture
      count for it, the completed count is zero without a progress record. */
  function EntryFor(courseId: CourseId, total: nat, progress: Option<CourseProgress>): (e: ProgressEntry)
    ensures e.courseId == courseId && e.totalLectures == total
    ensures progress.None? ==> e.lectureCompleted == 0
    ensures progress.Some? ==> e.lectureCompleted == |progress.value.lectureCompleted|
  {
    ProgressEntry(total, CompletedLectures(progress), courseId)
  }

  /** The page's first progress entry for the course. */
  function FindEntry(entries: seq<ProgressEntry>, courseId: CourseId): (r: Option<ProgressEntry>)
    ensures r.Some? ==> r.value in entries && r.value.courseId == courseId
    ensures r.None? <==> forall i :: 0 <= i < |entries| ==> entries[i].courseId != courseId
  {
    match Seqs.FindIndex(entries, (e: ProgressEntry) => e.courseId == courseId)
    case Some(i) => Some(entries[i])
    case None => None
  }

  /** `isCourseCompletedFrontend`. */
  predicate CompletedOnPage(entries: seq<ProgressEntry>, courseId: CourseId) {
    var e := FindEntry(entries, courseId);
    e.Some? && IsCourseCompleted(e.value.lectureCompleted, e.value.totalLectures)
  }

  /** When the page's entry for a course was built from the same lecture count
      and progress record the server uses, the page and the server's intended
      completion check agree. */
  lemma PageAgreesWithServer(w: World, entries: seq<ProgressEntry>, userId: UserId, course: Course)
    requires FindCourse(w, course.id) == Some(course)
    requires FindEntry(entries, course.id) == Some(EntryFor(course.id, TotalLectures(course), FindProgress(w, userId, course.id)))
    ensures CheckCourseCompletion(w, userId, course.id).Ok?
    ensures CompletedOnPage(entries, course.id) <==> CheckCourseCompletion(w, userId, course.id).value.isCompleted
  {
    LectureTotalCounts(course.courseContent.GetOr([]));
  }

  /** The latest result kept for a course: the last element of a successful
      results reply, nothing for a failed or empty one. */
  function LatestResult<E>(reply: Result<seq<QuizResult>, E>): (r: Option<QuizResult>)
    ensures r.Some? <==> reply.Ok? && |reply.value| > 0
    ensures r.Some? ==> r.value == reply.value[|reply.value| - 1]
  {
    if reply.Ok? && |reply.value| > 0 then Some(reply.value[|reply.value| - 1]) else None
  }

  /** With the server's ascending order and a numbered ledger, the kept result
      is the student's most recent attempt. */
  lemma LatestResultIsMostRecent(w: World, userId: UserId, courseId: CourseId)
    requires Numbered(w.results)
    requires LatestResult(GetUserQuizResults(w, userId, courseId)).Some?
    ensures var latest := LatestResult(GetUserQuizResults(w, userId, courseId)).value;
            var all := GetUserQuizResults(w, userId, courseId).value;
            latest.attemptNumber == |all|
            && forall k :: 0 <= k < |all| ==> all[k].attemptNumber <= latest.attemptNumber
  {
    LatestResultIsLastAttempt(w, userId, courseId);
  }

  /** `canApplyForCertificate`: no certificate status yet, the course
      completed, and the latest result passed. */
  predicate CanApply(entries: seq<ProgressEntry>, courseId: CourseId, latest: Option<QuizResult>,
                     status: Option<CertificateRequest>) {
    status.None? && CompletedOnPage(entries, courseId) && latest.Some? && latest.value.passed
  }

  /** When the page enables applying from the server's own replies, the two
      last checks of the server's gate pass: a passed attempt exists and no
      request does. */
  lemma PageApplyMeetsServerGate(w: World, entries: seq<ProgressEntry>, userId: UserId, courseId: CourseId)
    requires CanApply(entries, courseId, LatestResult(GetUserQuizResults(w, userId, courseId)),
                      GetCertificateStatus(w, userId, courseId))
    ensures FindQuizOfCourse(w, courseId).Some?
    ensures LatestPassed(w.results, userId, FindQuizOfCourse(w, courseId).value.id).Some?
    ensures FindRequestOf(w, userId, courseId).None?
  {
    var q := FindQuizOfCourse(w, courseId).value;
    var all := GetUserQuizResults(w, userId, courseId).value;
    var latest := all[|all| - 1];
    var a := AttemptsOf(w.results, userId, q.id);
    assert latest in multiset(a);
    var m :| 0 <= m < |a| && a[m] == latest;
    var k :| 0 <= k < |w.results| && w.results[k] == latest;
    assert PassedAttempt(w.results[k], userId, q.id);
  }

  /** The certificate button: its caption, colour, whether it is disabled and
      whether it shows the spinner. */
  datatype ButtonInfo = ButtonInfo(text: string, color: string, disabled: bool, loading: bool)

  /** `getCertificateButtonInfo`; `loading` is the page's in-flight flag for
      the course. */
  function CertificateButton(status: Option<CertificateRequest>, canApply: bool, loading: bool): (b: ButtonInfo)
    ensures status.None? ==> b.text == "Apply for Certificate" && (b.disabled <==> !canApply) && b.loading == loading
    ensures status.Some? && status.value.status == Pending ==> b.text == "Pending Approval" && b.disabled
    ensures status.Some? && status.value.status == Approved ==> b.text == "Download Certificate" && !b.disabled
    ensures status.Some? && status.value.status == Rejected ==> b.text == "Application Rejected" && b.disabled
    ensures status.Some? ==> !b.loading
    ensures !b.disabled <==> (status.None? && canApply) || (status.Some? && status.value.status == Approved)
  {
    match status
    case None =>
      ButtonInfo("Apply for Certificate", if canApply then "bg-green-600 hover:bg-green-700" else "bg-gray-400",
                 !canApply, loading)
    case Some(req) =>
      match req.status
      case Pending => ButtonInfo("Pending Approval", "bg-yellow-500", true, false)
      case Approved => ButtonInfo("Download Certificate", "bg-blue-600 hover:bg-blue-700", false, false)
      case Rejected => ButtonInfo("Application Rejected", "bg-red-500", true, false)
  }

  datatype CertificateClick = Apply(courseId: CourseId) | OpenCertificate(url: Option<string>) | NoAction

  /** `handleCertificateButtonClick`: apply without a status, open the
      certificate when approved, otherwise nothing. */
  function CertificateClickAction(courseId: CourseId, status: Option<CertificateRequest>): (a: CertificateClick)
    ensures a.Apply? <==> status.None?
    ensures a.Apply? ==> a.courseId == courseId
    ensures a.OpenCertificate? <==> status.Some? && status.value.status == Approved
    ensures a.OpenCertificate? ==> a.url == status.value.certificateUrl
  {
    match status
    case None => Apply(courseId)
    case Some(req) => if req.status == Approved then OpenCertificate(req.certificateUrl) else NoAction
  }

  /** A click acts exactly when the button is enabled, provided the page only
      enables applying when it can apply. */
  lemma ClickActsOnlyWhenEnabled(courseId: CourseId, status: Option<CertificateRequest>, canApply: bool, loading: bool)
    requires canApply
    ensures CertificateClickAction(courseId, status).NoAction? <==> CertificateButton(status, canApply, loading).disabled
  {
  }

  datatype QuizClick = ShowWarning(message: string) | CheckQuiz(courseId: CourseId)

  /** The warning shown when the lectures are not all done. */
  function ProgressWarning(courseTitle: string, completed: nat, total: nat): string {
    "Please complete all lectures of \"" + courseTitle + "\" before taking the quiz. (Progress: "
      + NatToString(completed) + "/" + NatToString(total) + " lectures)"
  }

  /** `handleQuizButtonClick`: an uncompleted course only gets the warning;
      a completed one goes on to ask the server for the quiz. */
  function QuizButtonClick(entries: seq<ProgressEntry>, courseId: CourseId, courseTitle: string): (a: QuizClick)
    ensures a.CheckQuiz? <==> CompletedOnPage(entries, courseId)
    ensures a.CheckQuiz? ==> a.courseId == courseId
    ensures a.ShowWarning? && FindEntry(entries, courseId).None? ==> a.message == ProgressWarning(courseTitle, 0, 0)
    ensures a.ShowWarning? && FindEntry(entries, courseId).Some? ==>
              var e := FindEntry(entries, courseId).value;
              a.message == ProgressWarning(courseTitle, e.lectureCompleted, e.totalLectures)
  {
    if CompletedOnPage(entries, courseId) then CheckQuiz(courseId)
    else
      var e := FindEntry(entries, courseId);
      var completed := if e.Some? then e.value.lectureCompleted else 0;
      var total := if e.Some? then e.value.totalLectures else 0;
      ShowWarning(ProgressWarning(courseTitle, completed, total))
  }
}

=== FILE: ids.dfy ===
/** Identifier types of the document store's collections. Ids are opaque strings. */
module Ids {
  type UserId = string
  type CourseId = string
  type QuizId = string
  type ResultId = string
  type RequestId = string
  type LectureId = string
}

=== FILE: quiz_admin.dfy ===
/** The educator-side quiz handlers: create, read, update and delete a
    course's quiz, and list which of the educator's courses have one. */
module QuizAdmin {
  import opened Wrappers
  import opened Ids
  import opened QuizModel
  import opened QuizValidation
  import opened Store
  import Seqs

  /** A numeric body field: `None` when omitted. */
  predicate Truthy(v: Option<int>) {
    v.Some? && v.value != 0
  }

  /** A number with a fallback: zero and absence both give `d`. */
  function OrElse(v: Option<int>, d: int): (r: int)
    ensures Truthy(v) ==> r == v.value
    ensures !Truthy(v) ==> r == d
  {
    if Truthy(v) then v.value else d
  }

  /** Text with a fallback: the empty string gives `d`. */
  function TextOrElse(s: string, d: string): (r: string)
    ensures s != "" ==> r == s
    ensures s == "" ==> r == d
  {
    if s != "" then s else d
  }

  datatype CreateBody = CreateBody(
    courseId: CourseId,
    title: string,
    description: string,
    questions: Option<seq<QuestionInput>>,
    passingScore: Option<int>,
    timeLimit: Option<int>,
    maxAttempts: Option<int>)

  datatype UpdateBody = UpdateBody(
    quizId: QuizId,
    title: string,
    description: string,
    questions: Option<seq<QuestionInput>>,
    passingScore: Option<int>,
    timeLimit: Option<int>,
    maxAttempts: Option<int>)

  datatype AdminError =
    | CourseIdRequired
    | QuestionsRequired
    | CourseNotOwned
    | QuizAlreadyExists
    | InvalidQuestion(reason: QuestionError)
    | QuizNotFound
    | NoQuizForCourse
    | SchemaRejected
    | DuplicateKey

  /** Some stored quiz belongs to the course. */
  predicate HasQuiz(quizzes: seq<Quiz>, courseId: CourseId) {
    exists i :: 0 <= i < |quizzes| && quizzes[i].courseId == courseId
  }

  /** The store-wide rule that a course has at most one quiz. */
  predicate OneQuizPerCourse(quizzes: seq<Quiz>) {
    forall i, j :: 0 <= i < j < |quizzes| ==> quizzes[i].courseId != quizzes[j].courseId
  }

  /** `_id` is unique in the collection. */
  predicate HasQuizId(quizzes: seq<Quiz>, id: QuizId) {
    exists i :: 0 <= i < |quizzes| && quizzes[i].id == id
  }

  /** The document `createQuiz` builds before the pre-save hook runs. */
  function DraftQuiz(educatorId: UserId, body: CreateBody, qs: seq<QuestionInput>, newId: QuizId): Quiz {
    Quiz(newId, body.courseId, educatorId,
         TextOrElse(body.title, DefaultTitle),
         TextOrElse(body.description, DefaultDescription),
         ToQuestions(qs), DefaultTotalPoints,
         OrElse(body.passingScore, DefaultPassingScore),
         OrElse(body.timeLimit, DefaultTimeLimit),
         DefaultIsActive,
         OrElse(body.maxAttempts, DefaultMaxAttempts))
  }

  /** The request checks of `createQuiz` that run before the document is
      built: a course id and a question list are given, the educator owns the
      course, the course has no quiz yet, and every question is acceptable. */
  predicate CreateChecksPass(w: World, educatorId: UserId, body: CreateBody) {
    && body.courseId != "" && body.questions.Some?
    && FindOwnedCourse(w, body.courseId, educatorId).Some?
    && !HasQuiz(w.quizzes, body.courseId)
    && ValidateQuestions(body.questions.value).None?
  }

  /** `createQuiz`: each check fails exactly when the earlier ones pass and
      its own condition fails, and a request passing all of them, with a
      schema-valid document under a fresh id, appends the quiz. */
  function CreateQuiz(w: World, educatorId: UserId, body: CreateBody, newId: QuizId): (r: Result<(World, Quiz), AdminError>)
    ensures (r == Err(CourseIdRequired)) <==> body.courseId == ""
    ensures (r == Err(QuestionsRequired)) <==> body.courseId != "" && body.questions.None?
    ensures (r == Err(CourseNotOwned)) <==>
              body.courseId != "" && body.questions.Some? && FindOwnedCourse(w, body.courseId, educatorId).None?
    ensures (r == Err(QuizAlreadyExists)) <==>
              && body.courseId != "" && body.questions.Some? && FindOwnedCourse(w, body.courseId, educatorId).Some?
              && HasQuiz(w.quizzes, body.courseId)
    ensures (r.Err? && r.error.InvalidQuestion?) <==>
              && body.courseId != "" && body.questions.Some? && FindOwnedCourse(w, body.courseId, educatorId).Some?
              && !HasQuiz(w.quizzes, body.courseId) && ValidateQuestions(body.questions.value).Some?
    ensures r.Err? && r.error.InvalidQuestion? ==>
              body.questions.Some? && ValidateQuestions(body.questions.value) == Some(r.error.reason)
    ensures (r == Err(SchemaRejected)) <==>
              CreateChecksPass(w, educatorId, body)
              && !SchemaValid(PreSave(DraftQuiz(educatorId, body, body.questions.value, newId)))
    ensures (r == Err(DuplicateKey)) <==>
              CreateChecksPass(w, educatorId, body)
              && SchemaValid(PreSave(DraftQuiz(educatorId, body, body.questions.value, newId)))
              && HasQuizId(w.quizzes, newId)
    ensures r.Ok? <==>
              CreateChecksPass(w, educatorId, body)
              && SchemaValid(PreSave(DraftQuiz(educatorId, body, body.questions.value, newId)))
              && !HasQuizId(w.quizzes, newId)
    ensures r.Ok? ==>
      var (w', q) := r.value;
      && body.courseId != "" && body.questions.Some?
      && FindOwnedCourse(w, body.courseId, educatorId).Some?
      && !HasQuiz(w.quizzes, body.courseId)
      && (forall i :: 0 <= i < |body.questions.value| ==> Acceptable(body.questions.value[i]))
      && w' == w.(quizzes := w.quizzes + [q])
      && q.id == newId && q.courseId == body.courseId && q.educatorId == educatorId
      && q.questions == ToQuestions(body.questions.value)
      && q.title == (if body.title != "" then body.title else DefaultTitle)
      && q.description == (if body.description != "" then body.description else DefaultDescription)
      && TotalConsistent(q) && SchemaValid(q) && q.isActive
      && q.passingScore == OrElse(body.passingScore, DefaultPassingScore)
      && q.timeLimit == OrElse(body.timeLimit, DefaultTimeLimit)
      && q.maxAttempts == OrElse(body.maxAttempts, DefaultMaxAttempts)
    ensures r.Ok? && OneQuizPerCourse(w.quizzes) ==> OneQuizPerCourse(r.value.0.quizzes)
  {
    if body.courseId == "" then Err(CourseIdRequired)
    else if body.questions.None? then Err(QuestionsRequired)
    else if FindOwnedCourse(w, body.courseId, educatorId).None? then Err(CourseNotOwned)
    else if FindQuizOfCourse(w, body.courseId).Some? then Err(QuizAlreadyExists)
    else
      var qs := body.questions.value;
      match ValidateQuestions(qs)
      case Some(e) => Err(InvalidQuestion(e))
      case None =>
        var q := PreSave(DraftQuiz(educatorId, body, qs, newId));
        if !SchemaValid(q) then Err(SchemaRejected)
        else if FindQuiz(w, newId).Some? then Err(DuplicateKey)
        else Ok((w.(quizzes := w.quizzes + [q]), q))
  }

  /** The first quiz with this id owned by the educator: the quiz the educator may change. */
  function OwnedQuizIndex(w: World, quizId: QuizId, educatorId: UserId): (r: Option<nat>)
    ensures r.Some? ==> r.value < |w.quizzes| && w.quizzes[r.value].id == quizId && w.quizzes[r.value].educatorId == educatorId
    ensures r.None? <==> forall i :: 0 <= i < |w.quizzes| ==> !(w.quizzes[i].id == quizId && w.quizzes[i].educatorId == educatorId)
  {
    Seqs.FindIndex(w.quizzes, (q: Quiz) => q.id == quizId && q.educatorId == educatorId)
  }

  /** The quiz after `updateQuiz` overwrites the supplied, truthy fields. */
  function Overwrite(q: Quiz, body: UpdateBody): Quiz {
    q.(questions := if body.questions.Some? then ToQuestions(body.questions.value) else q.questions,
       title := TextOrElse(body.title, q.title),
       description := TextOrElse(body.description, q.description),
       passingScore := OrElse(body.passingScore, q.passingScore),
       timeLimit := OrElse(body.timeLimit, q.timeLimit),
       maxAttempts := OrElse(body.maxAttempts, q.maxAttempts))
  }

  /** `updateQuiz`: a failed check leaves the store as it was; the update
      succeeds exactly when the educator owns the quiz, any supplied questions
      are acceptable and the overwritten document is schema-valid. A
      successful update replaces the quiz in place, keeps its identity, course,
      owner and active flag, and changes a setting only when the body supplies
      a truthy value for it. */
  function UpdateQuiz(w: World, educatorId: UserId, body: UpdateBody): (r: Result<(World, Quiz), AdminError>)
    ensures (r == Err(QuizNotFound)) <==> OwnedQuizIndex(w, body.quizId, educatorId).None?
    ensures r.Err? && r.error.InvalidQuestion? ==>
              body.questions.Some? && ValidateQuestions(body.questions.value) == Some(r.error.reason)
    ensures body.questions.Some? && ValidateQuestions(body.questions.value).Some? ==> r.Err?
    ensures (r.Err? && r.error.InvalidQuestion?) <==>
              && OwnedQuizIndex(w, body.quizId, educatorId).Some?
              && body.questions.Some? && ValidateQuestions(body.questions.value).Some?
    ensures (r == Err(SchemaRejected)) <==>
              && OwnedQuizIndex(w, body.quizId, educatorId).Some?
              && !(body.questions.Some? && ValidateQuestions(body.questions.value).Some?)
              && !SchemaValid(PreSave(Overwrite(w.quizzes[OwnedQuizIndex(w, body.quizId, educatorId).value], body)))
    ensures r.Ok? <==>
              && OwnedQuizIndex(w, body.quizId, educatorId).Some?
              && !(body.questions.Some? && ValidateQuestions(body.questions.value).Some?)
              && SchemaValid(PreSave(Overwrite(w.quizzes[OwnedQuizIndex(w, body.quizId, educatorId).value], body)))
    ensures r.Ok? ==>
      var (w', q) := r.value;
      var i := OwnedQuizIndex(w, body.quizId, educatorId).value;
      var prior := w.quizzes[i];
      && OwnedQuizIndex(w, body.quizId, educatorId).Some?
      && w' == w.(quizzes := w.quizzes[i := q])
      && q.id == prior.id && q.courseId == prior.courseId
      && q.educatorId == prior.educatorId && q.isActive == prior.isActive
      && q.questions == (if body.questions.Some? then ToQuestions(body.questions.value) else prior.questions)
      && q.title == (if body.title != "" then body.title else prior.title)
      && q.description == (if body.description != "" then body.description else prior.description)
      && q.passingScore == (if Truthy(body.passingScore) then body.passingScore.value else prior.passingScore)
      && q.timeLimit == (if Truthy(body.timeLimit) then body.timeLimit.value else prior.timeLimit)
      && q.maxAttempts == (if Truthy(body.maxAttempts) then body.maxAttempts.value else prior.maxAttempts)
      && TotalConsistent(q)
    ensures r.Ok? && OneQuizPerCourse(w.quizzes) ==> OneQuizPerCourse(r.value.0.quizzes)
  {
    match OwnedQuizIndex(w, body.quizId, educatorId)
    case None => Err(QuizNotFound)
    case Some(i) =>
      if body.questions.Some? && ValidateQuestions(body.questions.value).Some? then
        Err(InvalidQuestion(ValidateQuestions(body.questions.value).value))
      else
        var q := PreSave(Overwrite(w.quizzes[i], body));
        if !SchemaValid(q) then Err(SchemaRejected)
        else Ok((w.(quizzes := w.quizzes[i := q]), q))
  }

  /** `getQuizByCourse`: the full quiz, correct answers included, for its owner. */
  function GetQuizByCourse(w: World, educatorId: UserId, courseId: CourseId): (r: Result<Quiz, AdminError>)
    ensures (r == Err(CourseNotOwned)) <==> FindOwnedCourse(w, courseId, educatorId).None?
    ensures (r == Err(NoQuizForCourse)) <==>
              FindOwnedCourse(w, courseId, educatorId).Some? && !HasQuiz(w.quizzes, courseId)
    ensures r.Ok? <==> FindOwnedCourse(w, courseId, educatorId).Some? && HasQuiz(w.quizzes, courseId)
    ensures r.Ok? ==> r.value in w.quizzes && r.value.courseId == courseId
  {
    if FindOwnedCourse(w, courseId, educatorId).None? then Err(CourseNotOwned)
    else match FindQuizOfCourse(w, courseId)
      case None => Err(NoQuizForCourse)
      case Some(q) => Ok(q)
  }

  /** `deleteQuiz`: the owner may delete; the deletion removes the first
      quiz with that id and leaves everything else in the store, recorded
      attempts included, as it was. */
  function DeleteQuiz(w: World, educatorId: UserId, quizId: QuizId): (r: Result<World, AdminError>)
    ensures (r == Err(QuizNotFound)) <==> OwnedQuizIndex(w, quizId, educatorId).None?
    ensures r.Ok? ==> |r.value.quizzes| == |w.quizzes| - 1
    ensures r.Ok? ==> forall i :: 0 <= i < |r.value.quizzes| ==> r.value.quizzes[i] in w.quizzes
    ensures r.Ok? ==> r.value.results == w.results && r.value.requests == w.requests
    ensures r.Ok? ==> exists k ::
              && 0 <= k < |w.quizzes| && w.quizzes[k].id == quizId
              && (forall j :: 0 <= j < k ==> w.quizzes[j].id != quizId)
              && r.value == w.(quizzes := w.quizzes[..k] + w.quizzes[k + 1..])
    ensures r.Ok? && OneQuizPerCourse(w.quizzes) ==> OneQuizPerCourse(r.value.quizzes)
  {
    match OwnedQuizIndex(w, quizId, educatorId)
    case None => Err(QuizNotFound)
    case Some(_) =>
      var k := Seqs.FindIndex(w.quizzes, (q: Quiz) => q.id == quizId).value;
      assert w.quizzes[k].id == quizId;
      Ok(w.(quizzes := w.quizzes[..k] + w.quizzes[k + 1..]))
  }

  datatype CourseQuizStatus = CourseQuizStatus(courseId: CourseId, courseTitle: string, hasQuiz: bool)

  /** `getEducatorCoursesForQuiz`: the educator's courses in store order, each
      flagged with whether a quiz exists for it. */
  function EducatorCoursesForQuiz(w: World, educatorId: UserId): (r: seq<CourseQuizStatus>)
    ensures |r| == |Seqs.Filter(w.courses, (c: Course) => c.educator == educatorId)|
    ensures var owned := Seqs.Filter(w.courses, (c: Course) => c.educator == educatorId);
            forall i :: 0 <= i < |r| ==> r[i].courseId == owned[i].id && r[i].courseTitle == owned[i].courseTitle
    ensures forall i :: 0 <= i < |r| ==> r[i].hasQuiz == HasQuiz(w.quizzes, r[i].courseId)
  {
    var owned := Seqs.Filter(w.courses, (c: Course) => c.educator == educatorId);
    seq(|owned|, i requires 0 <= i < |owned| =>
      CourseQuizStatus(owned[i].id, owned[i].courseTitle, FindQuizOfCourse(w, owned[i].id).Some?))
  }
}

=== FILE: quiz_model.dfy ===
/** The quiz document: one per course, an ordered list of questions with
    their correct-answer markings, and the attempt and scoring settings. */
module QuizModel {
  import opened Ids

  /** One answer option. A missing `isCorrect` reads as `false`, the schema default. */
  datatype QuizOption = QuizOption(optionText: string, isCorrect: bool)

  /** The schema puts no bound on the number of options or on how many are
      correct; the controllers enforce four options and one correct answer. */
  datatype Question = Question(questionText: string, options: seq<QuizOption>, points: int)

  datatype Quiz = Quiz(
    id: QuizId,
    courseId: CourseId,
    educatorId: UserId,
    title: string,
    description: string,
    questions: seq<Question>,
    totalPoints: int,
    passingScore: int,
    timeLimit: int,
    isActive: bool,
    maxAttempts: int)

  const DefaultTitle: string := "Course Quiz"
  const DefaultDescription: string := "Test your knowledge with this quiz"
  const DefaultPoints: int := 1
  const DefaultIsCorrect: bool := false
  const DefaultTotalPoints: int := 0
  const DefaultPassingScore: int := 60
  const DefaultTimeLimit: int := 30
  const DefaultIsActive: bool := true
  const DefaultMaxAttempts: int := 1

  /** The points of all questions added up from the left. */
  function SumPoints(qs: seq<Question>): int {
    if |qs| == 0 then 0 else SumPoints(qs[..|qs| - 1]) + qs[|qs| - 1].points
  }

  /** At rest a quiz's total agrees with its questions. */
  predicate TotalConsistent(q: Quiz) {
    q.totalPoints == SumPoints(q.questions)
  }

  /** The pre-save hook: the total is recomputed from the questions on every
      save, and nothing else about the document changes. */
  function PreSave(q: Quiz): (r: Quiz)
    ensures TotalConsistent(r)
    ensures r.(totalPoints := q.totalPoints) == q
    ensures q.questions == [] ==> r.totalPoints == 0
  {
    q.(totalPoints := SumPoints(q.questions))
  }

  /** Every question carries a non-negative point value. */
  predicate NonNegativePoints(qs: seq<Question>) {
    forall i :: 0 <= i < |qs| ==> qs[i].points >= 0
  }

  /** With non-negative points, the total is zero exactly when every question is worth zero. */
  lemma {:induction false} ZeroTotalMeansZeroPoints(qs: seq<Question>)
    requires NonNegativePoints(qs)
    ensures SumPoints(qs) >= 0
    ensures SumPoints(qs) == 0 <==> forall i :: 0 <= i < |qs| ==> qs[i].points == 0
  {
    if |qs| > 0 {
      var init := qs[..|qs| - 1];
      assert NonNegativePoints(init) by {
        forall i | 0 <= i < |init| ensures init[i].points >= 0 {
          assert init[i] == qs[i];
        }
      }
      ZeroTotalMeansZeroPoints(init);
      if SumPoints(qs) == 0 {
        forall i | 0 <= i < |qs| ensures qs[i].points == 0 {
          if i < |qs| - 1 {
            assert init[i] == qs[i];
          }
        }
      }
      if forall i :: 0 <= i < |qs| ==> qs[i].points == 0 {
        forall i | 0 <= i < |init| ensures init[i].points == 0 {
          assert init[i] == qs[i];
        }
      }
    }
  }

  /** Mongoose's `required` on a string path refuses both a missing and an empty string. */
  predicate SchemaValid(q: Quiz) {
    && q.courseId != ""
    && q.educatorId != ""
    && q.title != ""
    && forall i :: 0 <= i < |q.questions| ==> QuestionSchemaValid(q.questions[i])
  }

  predicate QuestionSchemaValid(q: Question) {
    && q.questionText != ""
    && forall j :: 0 <= j < |q.options| ==> q.options[j].optionText != ""
  }

  /** The number of options marked correct. */
  function CorrectCount(opts: seq<QuizOption>): (n: nat)
    ensures n <= |opts|
  {
    if |opts| == 0 then 0 else (if opts[0].isCorrect then 1 else 0) + CorrectCount(opts[1..])
  }

  /** The single correct option of a question, when there is exactly one. */
  lemma {:induction false} OneCorrectOption(opts: seq<QuizOption>, k: nat)
    requires k < |opts| && opts[k].isCorrect
    requires forall j :: 0 <= j < |opts| && j != k ==> !opts[j].isCorrect
    ensures CorrectCount(opts) == 1
  {
    if k == 0 {
      NoCorrectOption(opts[1..]);
    } else {
      OneCorrectOption(opts[1..], k - 1);
    }
  }

  lemma {:induction false} NoCorrectOption(opts: seq<QuizOption>)
    requires forall j :: 0 <= j < |opts| ==> !opts[j].isCorrect
    ensures CorrectCount(opts) == 0
  {
    if |opts| > 0 {
      NoCorrectOption(opts[1..]);
    }
  }

  /** Option `k` is correct and no other option is. */
  predicate SoleCorrect(opts: seq<QuizOption>, k: int) {
    && 0 <= k < |opts| && opts[k].isCorrect
    && forall j :: 0 <= j < |opts| && j != k ==> !opts[j].isCorrect
  }

  /** No option is correct exactly when the count is zero. */
  lemma {:induction false} NoneCorrectIffZero(opts: seq<QuizOption>)
    ensures CorrectCount(opts) == 0 <==> forall j :: 0 <= j < |opts| ==> !opts[j].isCorrect
  {
    if |opts| > 0 {
      NoneCorrectIffZero(opts[1..]);
      assert forall j :: 1 <= j < |opts| ==> opts[1..][j - 1] == opts[j];
    }
  }

  /** The count is one exactly when a single option is marked correct, which
      is what the validator's count test admits. */
  lemma {:induction false} ExactlyOneCorrect(opts: seq<QuizOption>)
    ensures CorrectCount(opts) == 1 <==> exists k :: SoleCorrect(opts, k)
  {
    if CorrectCount(opts) == 1 {
      assert |opts| > 0;
      assert forall j :: 1 <= j < |opts| ==> opts[1..][j - 1] == opts[j];
      if opts[0].isCorrect {
        NoneCorrectIffZero(opts[1..]);
        assert SoleCorrect(opts, 0);
      } else {
        ExactlyOneCorrect(opts[1..]);
        var k :| SoleCorrect(opts[1..], k);
        assert SoleCorrect(opts, k + 1);
      }
    }
    if exists k :: SoleCorrect(opts, k) {
      var k :| SoleCorrect(opts, k);
      OneCorrectOption(opts, k);
    }
  }

  /** The schema itself bounds neither the number of options nor the number
      of correct ones: a question with two options, both correct, is storable. */
  lemma SchemaLeavesOptionsOpen()
    ensures QuestionSchemaValid(Question("Q", [QuizOption("a", true), QuizOption("b", true)], DefaultPoints))
    ensures CorrectCount([QuizOption("a", true), QuizOption("b", true)]) == 2
  {
    var opts := [QuizOption("a", true), QuizOption("b", true)];
    assert opts[1..][1..] == [];
  }
}

=== FILE: quiz_page.dfy ===
/** The student's quiz page: the answer sheet, navigation between questions,
    the countdown, the clock display and what the page sends on submit. */
module QuizPage {
  import opened Wrappers
  import opened Ids
  import opened Text
  import opened QuizModel
  import opened QuizResultModel
  import opened Scoring
  import opened ScoreBounds
  import opened Attempts
  import opened Store
  import Seqs

  // ---------------------------------------------------------------------------
  // Clock display

  function PadSeconds(secs: nat): string {
    (if secs < 10 then "0" else "") + NatToString(secs)
  }

  /** Reads a `m:ss` clock back into seconds. */
  function ParseClock(t: string): Option<nat> {
    match Seqs.FindIndex(t, (ch: char) => ch == ':')
    case None => None
    case Some(i) =>
      var mins := t[..i];
      var secs := t[i + 1..];
      if |mins| > 0 && AllDigits(mins) && |secs| == 2 && AllDigits(secs) && DigitsValue(secs) < 60
      then Some(DigitsValue(mins) * 60 + DigitsValue(secs))
      else None
  }

  lemma {:induction false} TwoDigitSeconds(secs: nat)
    requires secs < 60
    ensures |PadSeconds(secs)| == 2 && AllDigits(PadSeconds(secs)) && DigitsValue(PadSeconds(secs)) == secs
  {
    var p := PadSeconds(secs);
    if secs < 10 {
      assert p == ['0', DigitChar(secs)];
      assert p[..1] == ['0'];
      assert DigitsValue(p[..1]) == 0 by {
        assert p[..1][..0] == [];
      }
    } else {
      NatToStringRoundTrip(secs);
      assert NatToString(secs) == NatToString(secs / 10) + [DigitChar(secs % 10)];
      assert |NatToString(secs / 10)| == 1;
    }
  }

  /** `formatTime`: whole minutes, a colon, then the seconds in two digits.
      The display determines the number of seconds: reading it back gives
      the input. */
  function FormatTime(seconds: nat): (r: string)
    ensures ParseClock(r) == Some(seconds)
  {
    var m := NatToString(seconds / 60);
    var t := m + ":" + PadSeconds(seconds % 60);
    TwoDigitSeconds(seconds % 60);
    NatToStringRoundTrip(seconds / 60);
    assert t[|m|] == ':';
    assert forall k :: 0 <= k < |m| ==> t[k] == m[k];
    assert Seqs.FindIndex(t, (ch: char) => ch == ':') == Some(|m|);
    assert t[..|m|] == m;
    assert t[|m| + 1..] == PadSeconds(seconds % 60);
    t
  }

  /** The result screen's time-spent line: minutes, a colon and the seconds
      padded with leading zeros to two characters. */
  function TimeSpentText(timeSpent: nat): string {
    var s := NatToString(timeSpent % 60);
    NatToString(timeSpent / 60) + ":" + (if |s| < 2 then seq(2 - |s|, _ => '0') + s else s)
  }

  /** The result screen shows time spent exactly as the countdown clock would. */
  lemma TimeSpentTextIsFormatTime(timeSpent: nat)
    ensures TimeSpentText(timeSpent) == FormatTime(timeSpent)
  {
    var secs := timeSpent % 60;
    if secs < 10 {
      assert |NatToString(secs)| == 1;
      assert seq(1, _ => '0') == "0";
    } else {
      TwoDigitSeconds(secs);
    }
  }

  // ---------------------------------------------------------------------------
  // Answer sheet

  /** One entry per question: the chosen option's index, or nothing yet. */
  type Sheet = seq<Option<nat>>

  /** `n` unanswered slots. */
  function InitSheet(n: nat): (s: Sheet)
    ensures |s| == n && forall p :: 0 <= p < n ==> s[p].None?
  {
    seq(n, _ => None)
  }

  /** `handleAnswerSelect`: only the entry of that question changes. The page
      calls it with the current question's index. */
  function SelectAnswer(s: Sheet, questionIndex: nat, optionIndex: nat): (r: Sheet)
    requires questionIndex < |s|
    ensures |r| == |s| && r[questionIndex] == Some(optionIndex)
    ensures forall p :: 0 <= p < |s| && p != questionIndex ==> r[p] == s[p]
  {
    s[questionIndex := Some(optionIndex)]
  }

  /** The answers the page sends: one per answered question, in question order. */
  function Package(s: Sheet): (r: seq<Answer>)
    ensures |r| <= |s|
    ensures forall k :: 0 <= k < |r| ==>
              0 <= r[k].questionIndex < |s| && s[r[k].questionIndex] == Some(r[k].selectedOptionIndex)
    ensures forall i, j :: 0 <= i < j < |r| ==> r[i].questionIndex < r[j].questionIndex
  {
    if |s| == 0 then []
    else
      var n := |s| - 1;
      Package(s[..n]) + (if s[n].Some? then [Answer(n, s[n].value)] else [])
  }

  /** Every answered question is in the package. */
  lemma {:induction false} PackageComplete(s: Sheet, p: nat)
    requires p < |s| && s[p].Some?
    ensures exists k :: 0 <= k < |Package(s)| && Package(s)[k] == Answer(p, s[p].value)
    decreases |s|
  {
    var n := |s| - 1;
    var pre := Package(s[..n]);
    if p == n {
      assert Package(s)[|pre|] == Answer(p, s[p].value);
    } else {
      PackageComplete(s[..n], p);
      var k :| 0 <= k < |pre| && pre[k] == Answer(p, s[..n][p].value);
      assert Package(s)[k] == pre[k];
    }
  }

  /** An unanswered question is not in the package. */
  lemma UnansweredLeftOut(s: Sheet, p: nat)
    requires p < |s| && s[p].None?
    ensures forall k :: 0 <= k < |Package(s)| ==> Package(s)[k].questionIndex != p
  {
  }

  /** What the page sends for a sheet filled from the stripped quiz is accepted
      by the server's scoring: every answer is in range, no question is
      answered twice, so the score is at most the points on offer. */
  lemma PackagedSheetIsScorable(qs: seq<Question>, s: Sheet)
    requires |s| == |qs|
    requires forall p :: 0 <= p < |s| && s[p].Some? ==> s[p].value < |StripQuestion(qs[p]).options|
    ensures AllInRange(qs, Package(s)) && DistinctQuestions(Package(s))
    ensures Evaluate(qs, Package(s)).Some?
    ensures NonNegativePoints(qs) ==> Evaluate(qs, Package(s)).value.score <= SumPoints(qs)
  {
    var r := Package(s);
    assert forall k :: 0 <= k < |r| ==> InRange(qs, r[k]) by {
      forall k | 0 <= k < |r| ensures InRange(qs, r[k]) {
        var p := r[k].questionIndex;
        assert s[p].Some? && s[p].value == r[k].selectedOptionIndex;
      }
    }
    if NonNegativePoints(qs) {
      ScoreAtMostTotal(qs, r);
    }
  }

  // ---------------------------------------------------------------------------
  // Navigation

  /** `handleNext`: advances unless on the last question. */
  function Next(current: nat, n: nat): (r: nat)
    ensures current < n ==> r < n
    ensures current + 1 < n ==> r == current + 1
    ensures current + 1 >= n ==> r == current
  {
    if current + 1 < n then current + 1 else current
  }

  /** `handlePrevious`: goes back unless on the first question. */
  function Previous(current: nat): (r: nat)
    ensures current > 0 ==> r == current - 1
    ensures current == 0 ==> r == 0
  {
    if current > 0 then current - 1 else current
  }

  /** Position after a run of clicks: `true` is Next, `false` is Previous. */
  function Walk(current: nat, n: nat, clicks: seq<bool>): nat
    decreases |clicks|
  {
    if |clicks| == 0 then current
    else Walk(if clicks[0] then Next(current, n) else Previous(current), n, clicks[1..])
  }

  /** No sequence of clicks leaves the question range. */
  lemma {:induction false} WalkStaysInRange(current: nat, n: nat, clicks: seq<bool>)
    requires current < n
    ensures Walk(current, n, clicks) < n
    decreases |clicks|
  {
    if |clicks| > 0 {
      WalkStaysInRange(if clicks[0] then Next(current, n) else Previous(current), n, clicks[1..]);
    }
  }

  // ---------------------------------------------------------------------------
  // Countdown

  /** The clock starts at the time limit in seconds. */
  function StartTime(timeLimit: nat): nat {
    timeLimit * 60
  }

  /** One timer tick: a second less while any is left. */
  function Tick(timeLeft: nat): nat {
    if timeLeft > 0 then timeLeft - 1 else 0
  }

  function Ticks(timeLeft: nat, k: nat): nat
    decreases k
  {
    if k == 0 then timeLeft else Ticks(Tick(timeLeft), k - 1)
  }

  /** `timeSpent` as the page computes it. */
  function TimeSpent(timeLimit: nat, timeLeft: nat): int {
    timeLimit * 60 - timeLeft
  }

  /** After k ticks the page reports k seconds spent, up to the limit itself. */
  lemma {:induction false} TimeSpentCountsTicks(timeLimit: nat, k: nat)
    ensures TimeSpent(timeLimit, Ticks(StartTime(timeLimit), k)) == if k <= timeLimit * 60 then k else timeLimit * 60
  {
    TicksFrom(StartTime(timeLimit), k);
  }

  lemma {:induction false} TicksFrom(t: nat, k: nat)
    ensures Ticks(t, k) == if k <= t then t - k else 0
    decreases k
  {
    if k > 0 {
      TicksFrom(Tick(t), k - 1);
    }
  }

  // ---------------------------------------------------------------------------
  // Result screen

  /** "Try Again" is offered after a failed attempt with attempts to spare. */
  predicate TryAgainOffered(result: QuizResult, maxAttempts: int) {
    !result.passed && result.attemptNumber < maxAttempts
  }

  /** The page's offer agrees with the server's cap: after a submission the
      button shows exactly when the attempt failed and the server would still
      accept another one. */
  lemma TryAgainMatchesServerCap(w: World, userId: UserId, body: SubmitBody, newId: ResultId)
    requires SubmitQuiz(w, userId, body, newId).Ok?
    ensures var (w', res) := SubmitQuiz(w, userId, body, newId).value;
            var q := FindQuiz(w, body.quizId).value;
            TryAgainOffered(res, q.maxAttempts)
            <==> !res.passed && |AttemptsOf(w'.results, userId, body.quizId)| < q.maxAttempts
  {
    var (w', res) := SubmitQuiz(w, userId, body, newId).value;
    AttemptsOfAppend(w.results, res, userId, body.quizId);
  }
}

=== FILE: quiz_result_model.dfy ===
/** One recorded quiz attempt. Results are only ever appended. */
module QuizResultModel {
  import opened Ids

  /** `score / totalPoints * 100` read with exact arithmetic; JavaScript's
      division by zero gives NaN for 0/0 and an infinity otherwise. */
  datatype Percent = Finite(value: real) | NaN | PosInfinity | NegInfinity

  /** The per-answer record: every field is required by the schema. */
  datatype AnswerDetail = AnswerDetail(
    questionIndex: int,
    selectedOptionIndex: int,
    isCorrect: bool,
    points: int)

  /** score, totalPoints, percentage and passed are required, so every
      result carries them; attemptNumber and timeSpent have defaults. */
  datatype QuizResult = QuizResult(
    id: ResultId,
    quizId: QuizId,
    courseId: CourseId,
    userId: UserId,
    score: int,
    totalPoints: int,
    percentage: Percent,
    passed: bool,
    attemptNumber: int,
    answers: seq<AnswerDetail>,
    timeSpent: int)

  const DefaultAttemptNumber: int := 1
  const DefaultTimeSpent: int := 0
}

=== FILE: quiz_validation.dfy ===
/** The question-structure check that quiz creation and quiz update both run
    before anything is saved. */
module QuizValidation {
  import opened Wrappers
  import opened QuizModel
  import Text

  /** A question as it arrives in a request body: `options` is `None` when it
      is missing or not an array, `points` is `None` when omitted. */
  datatype QuestionInput = QuestionInput(questionText: string,
                                         options: Option<seq<QuizOption>>,
                                         points: Option<int>)

  /** The offending question, by its 1-based position. */
  datatype QuestionError =
    | NeedsTextAndFourOptions(number: nat)
    | NeedsOneCorrect(number: nat)

  /** Non-empty text and an `options` array of exactly four entries. */
  predicate HasTextAndFourOptions(q: QuestionInput) {
    q.questionText != "" && q.options.Some? && |q.options.value| == 4
  }

  /** The whole per-question check. */
  predicate Acceptable(q: QuestionInput) {
    HasTextAndFourOptions(q) && CorrectCount(q.options.value) == 1
  }

  /** The first unacceptable question of `qs`, if any, with the reason the
      controller reports for it: shape is checked before the correct count. */
  function ValidateQuestions(qs: seq<QuestionInput>): (r: Option<QuestionError>)
    ensures r.None? <==> forall i :: 0 <= i < |qs| ==> Acceptable(qs[i])
    ensures r.Some? ==> 1 <= r.value.number <= |qs|
    ensures r.Some? ==> forall i :: 0 <= i < r.value.number - 1 ==> Acceptable(qs[i])
    ensures r.Some? ==> !Acceptable(qs[r.value.number - 1])
    ensures r.Some? ==> (r.value.NeedsTextAndFourOptions? <==> !HasTextAndFourOptions(qs[r.value.number - 1]))
  {
    ValidateFrom(qs, 0)
  }

  function ValidateFrom(qs: seq<QuestionInput>, i: nat): (r: Option<QuestionError>)
    requires i <= |qs|
    ensures r.None? <==> forall j :: i <= j < |qs| ==> Acceptable(qs[j])
    ensures r.Some? ==> i + 1 <= r.value.number <= |qs|
    ensures r.Some? ==> forall j :: i <= j < r.value.number - 1 ==> Acceptable(qs[j])
    ensures r.Some? ==> !Acceptable(qs[r.value.number - 1])
    ensures r.Some? ==> (r.value.NeedsTextAndFourOptions? <==> !HasTextAndFourOptions(qs[r.value.number - 1]))
    decreases |qs| - i
  {
    if i == |qs| then None
    else if !HasTextAndFourOptions(qs[i]) then Some(NeedsTextAndFourOptions(i + 1))
    else if CorrectCount(qs[i].options.value) != 1 then Some(NeedsOneCorrect(i + 1))
    else ValidateFrom(qs, i + 1)
  }

  /** The reply text for a refused question. */
  function Message(e: QuestionError): string {
    match e
    case NeedsTextAndFourOptions(n) =>
      "Question " + Text.NatToString(n) + " must have question text and exactly 4 options"
    case NeedsOneCorrect(n) =>
      "Question " + Text.NatToString(n) + " must have exactly one correct option"
  }

  /** The stored form of a submitted question: an omitted point value takes the
      schema default of 1. */
  function ToQuestion(q: QuestionInput): (r: Question)
    ensures r.questionText == q.questionText
    ensures q.options.Some? ==> r.options == q.options.value
    ensures r.points == (if q.points.Some? then q.points.value else DefaultPoints)
  {
    Question(q.questionText, q.options.GetOr([]), q.points.GetOr(DefaultPoints))
  }

  /** Stored questions of an accepted list have four options and one correct answer each. */
  function ToQuestions(qs: seq<QuestionInput>): (r: seq<Question>)
    ensures |r| == |qs|
    ensures forall i :: 0 <= i < |qs| ==> r[i] == ToQuestion(qs[i])
    ensures (forall i :: 0 <= i < |qs| ==> Acceptable(qs[i])) ==>
              forall i :: 0 <= i < |r| ==> |r[i].options| == 4 && CorrectCount(r[i].options) == 1
  {
    seq(|qs|, i requires 0 <= i < |qs| => ToQuestion(qs[i]))
  }
}

=== FILE: score_bounds.dfy ===
/** How the evaluator's score relates to the quiz's total: bounded by it when
    every question is answered at most once, equal to it when every question
    is answered correctly. */
module ScoreBounds {
  import opened QuizModel
  import opened QuizResultModel
  import opened Scoring

  /** The points of the questions among the first `k` whose index is in `s`. */
  function PointsOn(qs: seq<Question>, s: set<int>, k: nat): int
    requires k <= |qs|
  {
    if k == 0 then 0 else PointsOn(qs, s, k - 1) + (if k - 1 in s then qs[k - 1].points else 0)
  }

  lemma {:induction false} PointsOnAdd(qs: seq<Question>, s: set<int>, x: int, k: nat)
    requires k <= |qs| && x !in s
    ensures PointsOn(qs, s + {x}, k) == PointsOn(qs, s, k) + (if 0 <= x < k then qs[x].points else 0)
  {
    if k > 0 {
      PointsOnAdd(qs, s, x, k - 1);
    }
  }

  lemma {:induction false} PointsOnBelowTotal(qs: seq<Question>, s: set<int>, k: nat)
    requires k <= |qs| && NonNegativePoints(qs)
    ensures PointsOn(qs, s, k) <= SumPoints(qs[..k])
    ensures (forall i :: 0 <= i < k ==> i in s) ==> PointsOn(qs, s, k) == SumPoints(qs[..k])
  {
    if k > 0 {
      PointsOnBelowTotal(qs, s, k - 1);
      assert qs[..k][..k - 1] == qs[..k - 1];
    }
  }

  lemma {:induction false} PointsOnEveryIndex(qs: seq<Question>, s: set<int>, k: nat)
    requires k <= |qs|
    requires forall i :: 0 <= i < k ==> i in s
    ensures PointsOn(qs, s, k) == SumPoints(qs[..k])
  {
    if k > 0 {
      PointsOnEveryIndex(qs, s, k - 1);
      assert qs[..k][..k - 1] == qs[..k - 1];
    }
  }

  /** No two answers name the same question. */
  predicate DistinctQuestions(answers: seq<Answer>) {
    forall i, j :: 0 <= i < j < |answers| ==> answers[i].questionIndex != answers[j].questionIndex
  }

  function Indices(answers: seq<Answer>): set<int> {
    set k | 0 <= k < |answers| :: answers[k].questionIndex
  }

  lemma IndicesCons(answers: seq<Answer>)
    requires |answers| > 0
    ensures Indices(answers) == Indices(answers[1..]) + {answers[0].questionIndex}
  {
    var rest := answers[1..];
    forall x | x in Indices(answers) ensures x in Indices(rest) + {answers[0].questionIndex} {
      var k :| 0 <= k < |answers| && answers[k].questionIndex == x;
      if k > 0 {
        assert rest[k - 1].questionIndex == x;
      }
    }
    forall x | x in Indices(rest) ensures x in Indices(answers) {
      var k :| 0 <= k < |rest| && rest[k].questionIndex == x;
      assert answers[k + 1].questionIndex == x;
    }
  }

  lemma HeadNotInRest(answers: seq<Answer>)
    requires |answers| > 0 && DistinctQuestions(answers)
    ensures answers[0].questionIndex !in Indices(answers[1..])
  {
    var rest := answers[1..];
    forall k | 0 <= k < |rest| ensures rest[k].questionIndex != answers[0].questionIndex {
      assert rest[k] == answers[k + 1];
    }
  }

  /** The score of answers to distinct questions is at most the points of those questions. */
  lemma {:induction false} ScoreWithinAnswered(qs: seq<Question>, answers: seq<Answer>)
    requires AllInRange(qs, answers) && DistinctQuestions(answers) && NonNegativePoints(qs)
    ensures Evaluate(qs, answers).value.score <= PointsOn(qs, Indices(answers), |qs|)
    decreases |answers|
  {
    if |answers| == 0 {
      assert Indices(answers) == {};
      PointsOnEmpty(qs, |qs|);
    } else {
      var rest := answers[1..];
      assert DistinctQuestions(rest) by {
        forall i, j | 0 <= i < j < |rest| ensures rest[i].questionIndex != rest[j].questionIndex {
          assert rest[i] == answers[i + 1] && rest[j] == answers[j + 1];
        }
      }
      ScoreWithinAnswered(qs, rest);
      IndicesCons(answers);
      var x := answers[0].questionIndex;
      HeadNotInRest(answers);
      PointsOnAdd(qs, Indices(rest), x, |qs|);
    }
  }

  lemma {:induction false} PointsOnEmpty(qs: seq<Question>, k: nat)
    requires k <= |qs|
    ensures PointsOn(qs, {}, k) == 0
  {
    if k > 0 {
      PointsOnEmpty(qs, k - 1);
    }
  }

  /** Answers that are not deduplicated by the handler can still not score more
      than the quiz's total when they name distinct questions. */
  lemma ScoreAtMostTotal(qs: seq<Question>, answers: seq<Answer>)
    requires AllInRange(qs, answers) && DistinctQuestions(answers) && NonNegativePoints(qs)
    ensures Evaluate(qs, answers).value.score <= SumPoints(qs)
  {
    ScoreWithinAnswered(qs, answers);
    PointsOnBelowTotal(qs, Indices(answers), |qs|);
    assert qs[..|qs|] == qs;
  }

  /** Answering every question once, each with its correct option, scores the quiz's total. */
  lemma AllCorrectScoresTotal(qs: seq<Question>, answers: seq<Answer>)
    requires |answers| == |qs|
    requires forall k :: 0 <= k < |answers| ==> answers[k].questionIndex == k
    requires AllInRange(qs, answers)
    requires forall k :: 0 <= k < |answers| ==> IsCorrect(qs, answers[k])
    ensures Evaluate(qs, answers).value.score == SumPoints(qs)
  {
    assert DistinctQuestions(answers);
    ScoreEqualsAnswered(qs, answers);
    forall i | 0 <= i < |qs| ensures i in Indices(answers) {
      assert answers[i].questionIndex == i;
    }
    PointsOnEveryIndex(qs, Indices(answers), |qs|);
    assert qs[..|qs|] == qs;
  }

  /** The equality half of `ScoreWithinAnswered`, which needs no sign condition on points. */
  lemma {:induction false} ScoreEqualsAnswered(qs: seq<Question>, answers: seq<Answer>)
    requires AllInRange(qs, answers) && DistinctQuestions(answers)
    requires forall k :: 0 <= k < |answers| ==> IsCorrect(qs, answers[k])
    ensures Evaluate(qs, answers).value.score == PointsOn(qs, Indices(answers), |qs|)
    decreases |answers|
  {
    if |answers| == 0 {
      assert Indices(answers) == {};
      PointsOnEmpty(qs, |qs|);
    } else {
      var rest := answers[1..];
      assert DistinctQuestions(rest) by {
        forall i, j | 0 <= i < j < |rest| ensures rest[i].questionIndex != rest[j].questionIndex {
          assert rest[i] == answers[i + 1] && rest[j] == answers[j + 1];
        }
      }
      assert forall k :: 0 <= k < |rest| ==> IsCorrect(qs, rest[k]) by {
        forall k | 0 <= k < |rest| ensures IsCorrect(qs, rest[k]) {
          assert rest[k] == answers[k + 1];
        }
      }
      ScoreEqualsAnswered(qs, rest);
      IndicesCons(answers);
      var x := answers[0].questionIndex;
      HeadNotInRest(answers);
      PointsOnAdd(qs, Indices(rest), x, |qs|);
    }
  }

  /** Without distinct question indices the bound fails: answering the only
      one-point question correctly twice scores 2 out of 1. */
  lemma RepeatedAnswerCountsTwice()
    ensures var qs := [Question("Q", [QuizOption("a", true), QuizOption("b", false)], 1)];
            Evaluate(qs, [Answer(0, 0), Answer(0, 0)]).value.score == 2 > SumPoints(qs)
  {
    var qs := [Question("Q", [QuizOption("a", true), QuizOption("b", false)], 1)];
    var answers := [Answer(0, 0), Answer(0, 0)];
    assert answers[1..] == [Answer(0, 0)];
    assert answers[1..][1..] == [];
    assert qs[..0] == [];
  }
}

=== FILE: scoring.dfy ===
/** The attempt evaluator of `submitQuiz`: per-answer detail records, the
    score, the percentage and the pass decision. */
module Scoring {
  import opened Wrappers
  import opened QuizModel
  import opened QuizResultModel

  /** One submitted answer. */
  datatype Answer = Answer(questionIndex: int, selectedOptionIndex: int)

  datatype Evaluation = Evaluation(score: int, details: seq<AnswerDetail>)

  /** `quiz.questions[qi].options[si]` exists. Any other index, including the
      client's `-1`, makes the handler throw. */
  predicate InRange(qs: seq<Question>, a: Answer) {
    0 <= a.questionIndex < |qs| && 0 <= a.selectedOptionIndex < |qs[a.questionIndex].options|
  }

  predicate AllInRange(qs: seq<Question>, answers: seq<Answer>) {
    forall k :: 0 <= k < |answers| ==> InRange(qs, answers[k])
  }

  /** The selected option is the one marked correct. */
  predicate IsCorrect(qs: seq<Question>, a: Answer)
    requires InRange(qs, a)
  {
    qs[a.questionIndex].options[a.selectedOptionIndex].isCorrect
  }

  /** The record kept for one answer: a correct answer earns its question's points, any other earns 0. */
  function DetailFor(qs: seq<Question>, a: Answer): (d: AnswerDetail)
    requires InRange(qs, a)
    ensures d.questionIndex == a.questionIndex && d.selectedOptionIndex == a.selectedOptionIndex
    ensures d.isCorrect == IsCorrect(qs, a)
    ensures d.points == (if IsCorrect(qs, a) then qs[a.questionIndex].points else 0)
  {
    var c := IsCorrect(qs, a);
    AnswerDetail(a.questionIndex, a.selectedOptionIndex, c, if c then qs[a.questionIndex].points else 0)
  }

  /** Sum of the points recorded in a list of detail records. */
  function DetailPoints(ds: seq<AnswerDetail>): int {
    if |ds| == 0 then 0 else ds[0].points + DetailPoints(ds[1..])
  }

  /** The `answers.forEach` loop: `None` when some answer is out of range (the
      handler throws), otherwise one detail record per answer, in order, and
      the score is the total of the details' points. Answers are not deduplicated. */
  function Evaluate(qs: seq<Question>, answers: seq<Answer>): (r: Option<Evaluation>)
    ensures r.Some? <==> AllInRange(qs, answers)
    ensures r.Some? ==> |r.value.details| == |answers|
    ensures r.Some? ==> forall k :: 0 <= k < |answers| ==> r.value.details[k] == DetailFor(qs, answers[k])
    ensures r.Some? ==> r.value.score == DetailPoints(r.value.details)
  {
    if |answers| == 0 then Some(Evaluation(0, []))
    else if !InRange(qs, answers[0]) then None
    else
      match Evaluate(qs, answers[1..])
      case None => None
      case Some(e) =>
        var d := DetailFor(qs, answers[0]);
        assert ([d] + e.details)[1..] == e.details;
        Some(Evaluation(d.points + e.score, [d] + e.details))
  }

  /** Reference definition of the score, accumulated from the last answer
      backwards: the points of each question whose correct option was chosen. */
  function CorrectPoints(qs: seq<Question>, answers: seq<Answer>): int
    requires AllInRange(qs, answers)
  {
    if |answers| == 0 then 0
    else
      var a := answers[|answers| - 1];
      CorrectPoints(qs, answers[..|answers| - 1]) + (if IsCorrect(qs, a) then qs[a.questionIndex].points else 0)
  }

  lemma {:induction false} CorrectPointsCons(qs: seq<Question>, answers: seq<Answer>)
    requires |answers| > 0 && AllInRange(qs, answers)
    ensures CorrectPoints(qs, answers) ==
              (if IsCorrect(qs, answers[0]) then qs[answers[0].questionIndex].points else 0)
              + CorrectPoints(qs, answers[1..])
    decreases |answers|
  {
    if |answers| > 1 {
      var init := answers[..|answers| - 1];
      CorrectPointsCons(qs, init);
      assert init[1..] == answers[1..][..|answers[1..]| - 1];
      assert init[0] == answers[0];
    } else {
      assert answers[..0] == [];
      assert answers[1..] == [];
    }
  }

  /** The evaluator's score is the sum of question points over the correctly answered questions. */
  lemma {:induction false} ScoreIsCorrectPoints(qs: seq<Question>, answers: seq<Answer>)
    requires AllInRange(qs, answers)
    ensures Evaluate(qs, answers).value.score == CorrectPoints(qs, answers)
    decreases |answers|
  {
    if |answers| > 0 {
      ScoreIsCorrectPoints(qs, answers[1..]);
      CorrectPointsCons(qs, answers);
    }
  }

  /** `score / totalPoints * 100`. */
  function PercentOf(score: int, totalPoints: int): (p: Percent)
    ensures totalPoints != 0 ==> p == Finite((score as real / totalPoints as real) * 100.0)
    ensures totalPoints == 0 ==> (p.NaN? <==> score == 0) && (p.PosInfinity? <==> score > 0)
  {
    if totalPoints != 0 then Finite((score as real / totalPoints as real) * 100.0)
    else if score > 0 then PosInfinity
    else if score < 0 then NegInfinity
    else NaN
  }

  /** The percentage reaches the pass mark: inclusive, false for NaN. */
  predicate MeetsThreshold(p: Percent, passingScore: int) {
    match p
    case Finite(v) => v >= passingScore as real
    case PosInfinity => true
    case NegInfinity => false
    case NaN => false
  }

  /** The pass test in integer arithmetic. */
  predicate PassedExact(score: int, totalPoints: int, passingScore: int) {
    if totalPoints > 0 then 100 * score >= passingScore * totalPoints
    else if totalPoints < 0 then 100 * score <= passingScore * totalPoints
    else score > 0
  }

  /** The percentage comparison is the cross-multiplied integer comparison,
      equality passing. */
  lemma PassTestIsCrossMultiplied(score: int, totalPoints: int, passingScore: int)
    ensures MeetsThreshold(PercentOf(score, totalPoints), passingScore) <==>
            PassedExact(score, totalPoints, passingScore)
  {
    if totalPoints != 0 {
      var s := score as real;
      var t := totalPoints as real;
      var ps := passingScore as real;
      var v := (s / t) * 100.0;
      assert v * t == 100.0 * s;
      if totalPoints > 0 {
        assert v >= ps <==> v * t >= ps * t;
      } else {
        assert v >= ps <==> v * t <= ps * t;
      }
      assert (100 * score) as real == 100.0 * s;
      assert (passingScore * totalPoints) as real == ps * t;
    }
  }

  /** With non-negative points summing to 0 every answer scores 0, so the
      percentage is NaN and the attempt cannot pass. */
  lemma ZeroTotalNeverPasses(qs: seq<Question>, answers: seq<Answer>, passingScore: int)
    requires NonNegativePoints(qs) && SumPoints(qs) == 0
    requires AllInRange(qs, answers)
    ensures Evaluate(qs, answers).value.score == 0
    ensures !MeetsThreshold(PercentOf(Evaluate(qs, answers).value.score, SumPoints(qs)), passingScore)
  {
    ZeroTotalMeansZeroPoints(qs);
    ZeroDetails(qs, answers);
  }

  lemma {:induction false} ZeroDetails(qs: seq<Question>, answers: seq<Answer>)
    requires forall i :: 0 <= i < |qs| ==> qs[i].points == 0
    requires AllInRange(qs, answers)
    ensures Evaluate(qs, answers).value.score == 0
    decreases |answers|
  {
    if |answers| > 0 {
      ZeroDetails(qs, answers[1..]);
    }
  }
}

=== FILE: seqs.dfy ===
/** Sequence helpers standing in for the document store's queries:
    a single-document lookup is the first match in insertion order, a listing
    keeps every match. */
module Seqs {
  import opened Wrappers

  /** Position of the first element satisfying `p`. */
  function FindIndex<T>(s: seq<T>, p: T -> bool): (r: Option<nat>)
    ensures r.Some? ==> r.value < |s| && p(s[r.value])
    ensures r.Some? ==> forall j :: 0 <= j < r.value ==> !p(s[j])
    ensures r.None? <==> forall j :: 0 <= j < |s| ==> !p(s[j])
  {
    if |s| == 0 then None
    else if p(s[0]) then Some(0)
    else
      match FindIndex(s[1..], p)
      case None => None
      case Some(i) => Some(i + 1)
  }

  /** A position that satisfies `p` with no earlier one that does is what `FindIndex` finds. */
  lemma FindIndexIsFirst<T>(s: seq<T>, p: T -> bool, i: nat)
    requires i < |s| && p(s[i])
    requires forall j :: 0 <= j < i ==> !p(s[j])
    ensures FindIndex(s, p) == Some(i)
  {
  }

  /** Every index moved one place to the right. */
  function Shift(ix: seq<nat>): (r: seq<nat>)
    ensures |r| == |ix| && forall k :: 0 <= k < |r| ==> r[k] == ix[k] + 1
  {
    seq(|ix|, k requires 0 <= k < |ix| => ix[k] + 1)
  }

  /** The positions of the elements satisfying `p`, ascending. */
  function Positions<T>(s: seq<T>, p: T -> bool): (ix: seq<nat>)
    ensures forall k :: 0 <= k < |ix| ==> ix[k] < |s| && p(s[ix[k]])
    ensures forall k, l :: 0 <= k < l < |ix| ==> ix[k] < ix[l]
  {
    if |s| == 0 then []
    else (if p(s[0]) then [0] else []) + Shift(Positions(s[1..], p))
  }

  /** No position satisfying `p` is missed. */
  lemma {:induction false} PositionsComplete<T>(s: seq<T>, p: T -> bool, i: nat)
    requires i < |s| && p(s[i])
    ensures i in Positions(s, p)
    decreases |s|
  {
    var k := PositionOf(s, p, i);
  }

  /** The place in `Positions(s, p)` where position `i` is listed. */
  lemma {:induction false} PositionOf<T>(s: seq<T>, p: T -> bool, i: nat) returns (k: nat)
    requires i < |s| && p(s[i])
    ensures k < |Positions(s, p)| && Positions(s, p)[k] == i
    decreases |s|
  {
    var rest := Positions(s[1..], p);
    var head: seq<nat> := if p(s[0]) then [0] else [];
    assert Positions(s, p) == head + Shift(rest);
    if i == 0 {
      k := 0;
    } else {
      assert s[1..][i - 1] == s[i];
      var j := PositionOf(s[1..], p, i - 1);
      k := |head| + j;
      assert Shift(rest)[j] == i;
    }
  }

  /** The elements satisfying `p`, in their original order. */
  function Filter<T(==)>(s: seq<T>, p: T -> bool): (r: seq<T>)
    ensures |r| <= |s|
    ensures forall i :: 0 <= i < |r| ==> r[i] in s && p(r[i])
    ensures forall i :: 0 <= i < |s| && p(s[i]) ==> s[i] in r
  {
    if |s| == 0 then []
    else (if p(s[0]) then [s[0]] else []) + Filter(s[1..], p)
  }

  /** `Filter` keeps exactly the elements at `Positions(s, p)`, in that order:
      each kept element appears as often as in `s`. */
  lemma {:induction false} FilterAtPositions<T>(s: seq<T>, p: T -> bool)
    ensures |Filter(s, p)| == |Positions(s, p)|
    ensures forall k :: 0 <= k < |Filter(s, p)| ==> Filter(s, p)[k] == s[Positions(s, p)[k]]
    decreases |s|
  {
    if |s| > 0 {
      FilterAtPositions(s[1..], p);
      var rest := Positions(s[1..], p);
      var f := Filter(s[1..], p);
      forall k | 0 <= k < |f|
        ensures f[k] == s[Shift(rest)[k]]
      {
        assert s[1..][rest[k]] == s[rest[k] + 1];
      }
    }
  }

  /** Reading the filtered elements backwards visits their positions in
      decreasing order. */
  lemma {:induction false} ReversedFilterAtPositions<T>(s: seq<T>, p: T -> bool)
    ensures var ix := Positions(s, p);
            && |Reverse(Filter(s, p))| == |ix|
            && forall k :: 0 <= k < |ix| ==> Reverse(Filter(s, p))[k] == s[ix[|ix| - 1 - k]]
  {
    FilterAtPositions(s, p);
  }

  /** Filtering distributes over concatenation, so the kept elements stay in order. */
  lemma {:induction false} FilterAppend<T>(a: seq<T>, b: seq<T>, p: T -> bool)
    ensures Filter(a + b, p) == Filter(a, p) + Filter(b, p)
    decreases |a|
  {
    if |a| > 0 {
      assert (a + b)[1..] == a[1..] + b;
      FilterAppend(a[1..], b, p);
    } else {
      assert a + b == b;
    }
  }

  /** The elements of `s` in reverse order (a newest-first listing). */
  function Reverse<T>(s: seq<T>): (r: seq<T>)
    ensures |r| == |s|
    ensures forall i :: 0 <= i < |s| ==> r[i] == s[|s| - 1 - i]
  {
    if |s| == 0 then [] else [s[|s| - 1]] + Reverse(s[..|s| - 1])
  }

  /** No element occurs twice. */
  predicate NoDuplicates<T(==)>(s: seq<T>) {
    forall i, j :: 0 <= i < j < |s| ==> s[i] != s[j]
  }

  /** A duplicate-free sequence has as many elements as the set of its elements. */
  lemma {:induction false} NoDuplicatesCardinality<T>(s: seq<T>)
    requires NoDuplicates(s)
    ensures |set x | x in s| == |s|
  {
    if |s| > 0 {
      var init := s[..|s| - 1];
      var last := s[|s| - 1];
      assert NoDuplicates(init);
      NoDuplicatesCardinality(init);
      assert last !in init by {
        forall i | 0 <= i < |init| ensures init[i] != last {
          assert s[i] == init[i];
        }
      }
      assert (set x | x in s) == (set x | x in init) + {last} by {
        assert s == init + [last];
      }
    }
  }
}

=== FILE: store.dfy ===
/** The document store the handlers read and write, as immutable collections in
    insertion order, plus the user, course and progress documents that other
    parts of the application own and this core only reads. */
module Store {
  import opened Wrappers
  import opened Ids
  import opened QuizModel
  import opened QuizResultModel
  import opened CertificateModel
  import Seqs

  datatype User = User(id: UserId, name: string, email: string, imageUrl: string,
                       enrolledCourses: seq<CourseId>)

  /** A chapter's `chapterContent` may be missing or not an array. */
  datatype Chapter = Chapter(chapterContent: Option<seq<LectureId>>)

  /** A course's `courseContent` may be missing or not an array. */
  datatype Course = Course(id: CourseId, courseTitle: string, educator: UserId,
                           courseContent: Option<seq<Chapter>>, enrolledStudents: seq<UserId>)

  /** The completed-lecture record of one student in one course. */
  datatype CourseProgress = CourseProgress(userId: UserId, courseId: CourseId,
                                           lectureCompleted: seq<LectureId>)

  datatype World = World(
    users: seq<User>,
    courses: seq<Course>,
    quizzes: seq<Quiz>,
    results: seq<QuizResult>,
    requests: seq<CertificateRequest>,
    progress: seq<CourseProgress>)

  /** `User.findById`. */
  function FindUser(w: World, id: UserId): (r: Option<User>)
    ensures r.Some? ==> r.value in w.users && r.value.id == id
    ensures r.None? <==> forall i :: 0 <= i < |w.users| ==> w.users[i].id != id
  {
    match Seqs.FindIndex(w.users, (u: User) => u.id == id)
    case Some(i) => Some(w.users[i])
    case None => None
  }

  /** `Course.findById`. */
  function FindCourse(w: World, id: CourseId): (r: Option<Course>)
    ensures r.Some? ==> r.value in w.courses && r.value.id == id
    ensures r.None? <==> forall i :: 0 <= i < |w.courses| ==> w.courses[i].id != id
  {
    match Seqs.FindIndex(w.courses, (c: Course) => c.id == id)
    case Some(i) => Some(w.courses[i])
    case None => None
  }

  /** The course with this id, if the educator owns it. */
  function FindOwnedCourse(w: World, id: CourseId, educator: UserId): (r: Option<Course>)
    ensures r.Some? ==> r.value in w.courses && r.value.id == id && r.value.educator == educator
    ensures r.None? <==> forall i :: 0 <= i < |w.courses| ==> !(w.courses[i].id == id && w.courses[i].educator == educator)
  {
    match Seqs.FindIndex(w.courses, (c: Course) => c.id == id && c.educator == educator)
    case Some(i) => Some(w.courses[i])
    case None => None
  }

  /** `Quiz.findById`. */
  function FindQuiz(w: World, id: QuizId): (r: Option<Quiz>)
    ensures r.Some? ==> r.value in w.quizzes && r.value.id == id
    ensures r.None? <==> forall i :: 0 <= i < |w.quizzes| ==> w.quizzes[i].id != id
  {
    match Seqs.FindIndex(w.quizzes, (q: Quiz) => q.id == id)
    case Some(i) => Some(w.quizzes[i])
    case None => None
  }

  /** The first quiz of the course: the same first-match lookup as `FindQuiz`,
      on the course field instead of the id. */
  function FindQuizOfCourse(w: World, courseId: CourseId): (r: Option<Quiz>)
    ensures r.Some? ==> r.value in w.quizzes && r.value.courseId == courseId
    ensures r.None? <==> forall i :: 0 <= i < |w.quizzes| ==> w.quizzes[i].courseId != courseId
  {
    match Seqs.FindIndex(w.quizzes, (q: Quiz) => q.courseId == courseId)
    case Some(i) => Some(w.quizzes[i])
    case None => None
  }

  /** The first active quiz of the course. */
  function FindActiveQuizOfCourse(w: World, courseId: CourseId): (r: Option<Quiz>)
    ensures r.Some? ==> r.value in w.quizzes && r.value.courseId == courseId && r.value.isActive
    ensures r.None? <==> forall i :: 0 <= i < |w.quizzes| ==> !(w.quizzes[i].courseId == courseId && w.quizzes[i].isActive)
  {
    match Seqs.FindIndex(w.quizzes, (q: Quiz) => q.courseId == courseId && q.isActive)
    case Some(i) => Some(w.quizzes[i])
    case None => None
  }

  /** The first certificate request of the student for the course. */
  function FindRequestOf(w: World, userId: UserId, courseId: CourseId): (r: Option<CertificateRequest>)
    ensures r.Some? ==> r.value in w.requests && r.value.userId == userId && r.value.courseId == courseId
    ensures r.None? <==> forall i :: 0 <= i < |w.requests| ==> !(w.requests[i].userId == userId && w.requests[i].courseId == courseId)
  {
    match Seqs.FindIndex(w.requests, (q: CertificateRequest) => q.userId == userId && q.courseId == courseId)
    case Some(i) => Some(w.requests[i])
    case None => None
  }

  /** The student's first progress record for the course. */
  function FindProgress(w: World, userId: UserId, courseId: CourseId): (r: Option<CourseProgress>)
    ensures r.Some? ==> r.value in w.progress && r.value.userId == userId && r.value.courseId == courseId
    ensures r.None? <==> forall i :: 0 <= i < |w.progress| ==> !(w.progress[i].userId == userId && w.progress[i].courseId == courseId)
  {
    match Seqs.FindIndex(w.progress, (p: CourseProgress) => p.userId == userId && p.courseId == courseId)
    case Some(i) => Some(w.progress[i])
    case None => None
  }

  /** The user exists and the course is among the user's enrolled courses. */
  predicate IsEnrolled(w: World, userId: UserId, courseId: CourseId) {
    var u := FindUser(w, userId);
    u.Some? && courseId in u.value.enrolledCourses
  }
}

=== FILE: text.dfy ===
/** Decimal rendering of numbers and JavaScript's notion of blank text. */
module Text {

  predicate IsDigit(c: char) {
    '0' <= c <= '9'
  }

  predicate AllDigits(s: string) {
    forall i :: 0 <= i < |s| ==> IsDigit(s[i])
  }

  function DigitValue(c: char): nat
    requires IsDigit(c)
  {
    (c as int) - ('0' as int)
  }

  function DigitChar(d: nat): (c: char)
    requires d < 10
    ensures IsDigit(c) && DigitValue(c) == d
  {
    (('0' as int) + d) as char
  }

  /** The decimal digits of `n`, as a template literal `${n}` prints a non-negative integer. */
  function NatToString(n: nat): (s: string)
    ensures |s| > 0 && AllDigits(s)
    decreases n
  {
    if n < 10 then [DigitChar(n)] else NatToString(n / 10) + [DigitChar(n % 10)]
  }

  /** Reads a string of decimal digits back as a number. */
  function DigitsValue(s: string): nat
    requires AllDigits(s)
  {
    if |s| == 0 then 0 else 10 * DigitsValue(s[..|s| - 1]) + DigitValue(s[|s| - 1])
  }

  /** Printing then reading a number gives the number back. */
  lemma {:induction false} NatToStringRoundTrip(n: nat)
    ensures DigitsValue(NatToString(n)) == n
    decreases n
  {
    if n >= 10 {
      NatToStringRoundTrip(n / 10);
      var s := NatToString(n);
      assert s[..|s| - 1] == NatToString(n / 10);
    }
  }

  /** The decimal text of any integer, with a leading minus when negative. */
  function IntToString(i: int): (s: string)
    ensures i >= 0 ==> s == NatToString(i)
    ensures i < 0 ==> s == "-" + NatToString(-i)
  {
    if i < 0 then "-" + NatToString(-i) else NatToString(i)
  }

  /** The characters `String.prototype.trim` removes: ECMAScript WhiteSpace
      (tab, vertical tab, form feed, space, no-break space, byte-order mark and
      the Unicode space separators) and LineTerminator. */
  predicate IsTrimmable(c: char) {
    || c == '\t' || c == '\n' || c == '\U{000B}' || c == '\U{000C}' || c == '\r'
    || c == ' ' || c == '\U{00A0}' || c == '\U{1680}'
    || ('\U{2000}' <= c <= '\U{200A}')
    || c == '\U{2028}' || c == '\U{2029}' || c == '\U{202F}' || c == '\U{205F}'
    || c == '\U{3000}' || c == '\U{FEFF}'
  }

  /** The string is empty once surrounding whitespace is trimmed. */
  predicate IsBlank(s: string) {
    forall i :: 0 <= i < |s| ==> IsTrimmable(s[i])
  }
}

=== FILE: wrappers.dfy ===
/** Failure-carrying wrappers used by every handler of the model. */
module Wrappers {

  /** A value that may be absent: a missing document, an omitted request field. */
  datatype Option<T> = None | Some(value: T) {

    /** The wrapped value, or `default` when absent (a schema default). */
    function GetOr(default: T): T {
      if Some? then value else default
    }
  }

  /** The reply of a handler: a payload on success, or the reason for refusal.
      An `Err` never carries a store, so a refused request saves nothing. */
  datatype Result<T, E> = Ok(value: T) | Err(error: E)
}
